=== FILE: README.md ===
# RDMA harness and IP-encapsulator driver: a Dafny model

This project models three pieces of driver logic from the RDMA hardware pipeline. Each runs on a little-endian Cortex-A53 and talks to FPGA logic through memory-mapped registers and shared DDR. The model proves properties about each piece.

1. **Work-queue entry codec** (`ring_entry.dfy`):
   - The 64-byte submit-queue entry `sq_entry_t` and the 32-byte completion-queue entry `cq_entry_t`, as arrays of 32-bit words, with encode/decode round trips.
   - The byte image of the C struct layout.
   - The status/opcode packing of completion word 1.
   - The submit-queue buffer as a sequence of words with per-slot store and load.
2. **Queue-pair register protocol** (`queue_pair.dfy`, `harness.dfy`, `loopback_test.dfy`, `ring_test.dfy`):
   - The register block of the data-mover engine, with `REG_ADDR`.
   - Configuration, and the read-modify-write of global enable.
   - The SQ_TAIL doorbell: `+ 1` in the loopback harness and `(t + 1) % 4` in the ring harness.
   - The bounded busy-poll on SQ_HEAD, and the conditional CQ_HEAD acknowledge.
   - Both harness `main`s as whole sessions.
   - The buffer-range invariants of their descriptors, and the sampled remote-write verification.
   - Everything the engine produces arrives as an input:
     - SQ_HEAD and CQ_TAIL reads;
     - completion entries;
     - the remote buffer.
3. **IP-encapsulator driver** (`ip_encapsulator.dfy`):
   - The XOR hash `compute_bram_index`.
   - The 8-word endpoint entry at `bram_base + index * 32`, with pack/unpack and a 48-bit-MAC round trip.
   - The BRAM as a function from byte address to word, with writes confined to one slot.
   - Enable, disable and the clear-counters pulse on the control word.
   - Status decoding.
   - 64-bit counter assembly.
   - The test program's two endpoints.

Shared helpers:
- `bits.dfy` holds fixed-width helpers: 64/32/16-bit halves, little-endian bytes, set/clear of masked bits, and the 32-bit address space.
- `memory_layout.dfy` holds byte ranges with inclusion and disjointness.
- `optional.dfy` holds `Option`.

`uint8_t`, `uint16_t`, `uint32_t` and `uint64_t` values are `bv8` to `bv64`, so C's wrap-around is the bit-vectors' own. Byte addresses computed in `uint32_t` are naturals below 2^32, with sums taken modulo 2^32.

## Model

| member | source | states |
|---|---|---|
| RingEntry.EncodeSq | subparts_for_testing/rdma_logic/Vitis/dma_mover/src/main.c:39-49 | word 0 is the id; word 1 holds opcode in bits [15:0] and flags in [31:16]; words 2-3 and 4-5 are the two keys low word first; words 6 and 7 are length_lo and length_hi; words 8-15 are the reserved words; decoding the image gives the entry back |
| RingEntry.DecodeSq | subparts_for_testing/rdma_logic/Vitis/dma_mover/src/main.c:39-49 | reads each field from its word as the engine does; it has no contract of its own: EncodeDecodeSq and EncodeSq state that it inverts the encoding in both directions |
| RingEntry.EncodeDecodeSq | subparts_for_testing/rdma_logic/Vitis/dma_mover/src/main.c:39-49 | every 16-word image is the encoding of what it decodes to (the codec is a bijection) |
| RingEntry.EncodeSqFieldOffsets | rdma_final_project/rdma_tx/Vitis/rdma_tx_app/src/helloworld.c:59-69 | the little-endian byte image puts every field at the byte offset of the C struct: id at 0, opcode at 4, flags at 6, local_key at 8, remote_key at 16, length_lo at 24, length_hi at 28, reserved at 32-63 |
| RingEntry.EncodeCq | subparts_for_testing/rdma_logic/Vitis/dma_mover/src/main.c:51-61 | the eight words of a completion entry decode back to the entry |
| RingEntry.DecodeCq | subparts_for_testing/rdma_logic/Vitis/dma_mover/src/main.c:51-61 | reads the eight completion words as fields; it has no contract of its own: EncodeDecodeCq and EncodeCq state that it inverts the encoding in both directions |
| RingEntry.EncodeDecodeCq | rdma_final_project/rdma_tx/Vitis/rdma_tx_app/src/helloworld.c:71-81 | every 8-word image is the encoding of what it decodes to |
| RingEntry.PackStatusOpcode | subparts_for_testing/rdma_logic/Vitis/dma_mover/src/main.c:79-80 | status placed in bits [7:0] and opcode in [15:8] are read back exactly by `& 0xFF` and `(>> 8) & 0xFF`, with bits [31:16] zero |
| RingEntry.PackStatusOpcodeOf | subparts_for_testing/rdma_logic/Vitis/dma_mover/src/main.c:54 | a status word with clear reserved bits is the packing of the status and opcode extracted from it |
| RingEntry.Interpret | subparts_for_testing/rdma_logic/Vitis/dma_mover/src/main.c:76-85 | wqe_id, original_id and original_length pass through unchanged; the reported byte count is the 64-bit value whose low and high words are bytes_sent_lo and bytes_sent_hi; for every status word, whatever the hardware put in bits [31:16], status and opcode are the two fields its low half is packed from (and the whole word when those bits are clear) |
| RingEntry.MakeCq | subparts_for_testing/rdma_logic/Vitis/dma_mover/src/main.c:76-85 | for every completion record there is an entry whose field extraction (status, opcode, 64-bit bytes sent from its halves, ids, length) yields exactly that record |
| RingEntry.MakeInterpret | subparts_for_testing/rdma_logic/Vitis/dma_mover/src/main.c:76-85 | the field extraction loses nothing but the reserved bits |
| RingEntry.StoreSq | subparts_for_testing/rdma_logic/Vitis/dma_mover/src/main.c:160-169 | writing `sq_buf[slot]` makes the slot read back as the entry and leaves every word outside the slot unchanged |
| RingEntry.LoadStoreOther | subparts_for_testing/rdma_logic/Vitis/dma_mover/src/main.c:160-202 | writing one slot leaves every other slot's entry unchanged |
| RingEntry.StoreAll | subparts_for_testing/rdma_logic/Vitis/dma_mover/src/main.c:160-202 | after writing entries into slots 0 .. n-1, each slot holds its entry and every word past them is as before |
| QueuePair.RegAddrInjective | subparts_for_testing/rdma_logic/Vitis/dma_mover/src/main.c:22-37 | distinct register indices have distinct 32-bit addresses for every base |
| QueuePair.RegAddr | subparts_for_testing/rdma_logic/Vitis/dma_mover/src/main.c:36-37 | `REG_ADDR(idx)` is `base + idx*4` in 32-bit unsigned arithmetic; with a 4-byte aligned base every register address is 4-byte aligned (distinctness is the lemma above) |
| QueuePair.Configure | subparts_for_testing/rdma_logic/Vitis/dma_mover/src/main.c:126-135 | SQ/CQ bases and sizes hold the values written, SQ_TAIL = CQ_HEAD = 0, the last two writes are those resets, no other register changes and no hardware-owned register is written |
| QueuePair.GlobalEnable | subparts_for_testing/rdma_logic/Vitis/dma_mover/src/main.c:140-143 | CTRL bit 0 becomes set, every other CTRL bit and every other register is unchanged, and exactly one CTRL write is issued |
| QueuePair.GlobalEnableIdempotent | rdma_final_project/rdma_tx/Vitis/rdma_tx_app/src/helloworld.c:200-203 | enabling twice leaves the registers as enabling once |
| QueuePair.RingDoorbell | subparts_for_testing/rdma_logic/Vitis/dma_mover/src/main.c:229 | SQ_TAIL holds the written value, nothing else changes, one write is issued |
| QueuePair.NextTailLinear | subparts_for_testing/rdma_logic/Vitis/dma_mover/src/main.c:222-229 | the new tail is one past the old in 32-bit arithmetic: larger when the old one is below 0xFFFFFFFF, and 0 when it is 0xFFFFFFFF |
| QueuePair.NextTailRing | rdma_final_project/rdma_tx/Vitis/rdma_tx_app/src/helloworld.c:285 | for every tail, 0xFFFFFFFF included, the new tail is the value below 4 that agrees with t + 1 in its two low bits: t + 1 for t < 3, and 0 from 3 |
| QueuePair.NextTailRingPeriod | rdma_final_project/rdma_tx/Vitis/rdma_tx_app/src/helloworld.c:285 | four ring doorbells from any in-ring tail return to it |
| QueuePair.FirstChange | subparts_for_testing/rdma_logic/Vitis/dma_mover/src/main.c:237-244 | the number of polls before the loop stops, counting from `from`: every read before it returned the old head, and if it is below the timeout the read at it differs |
| QueuePair.Poll | subparts_for_testing/rdma_logic/Vitis/dma_mover/src/main.c:233-252 | the poll makes at most `timeout` unchanged reads; it reports an advance exactly when the head it ends with differs from the head before, and then that head is the first differing read; otherwise it made exactly `timeout` reads, all unchanged |
| QueuePair.PollSqHead | rdma_final_project/rdma_tx/Vitis/rdma_tx_app/src/helloworld.c:293-303 | the `while (poll_count < timeout)` loop with its early break computes exactly the poll above |
| QueuePair.Acknowledge | subparts_for_testing/rdma_logic/Vitis/dma_mover/src/main.c:263-271 | CQ_HEAD := cq_tail_after is written, as the only write, exactly when CQ_TAIL moved; otherwise nothing is written and no register changes |
| QueuePair.LastAckReported | rdma_final_project/rdma_tx/Vitis/rdma_tx_app/src/helloworld.c:313-321 | the CQ_HEAD value the acknowledges leave, the CQ_TAIL read of the last iteration in which CQ_TAIL moved, is either the starting value or a CQ_TAIL value read in an iteration in which CQ_TAIL moved |
| QueuePair.IterateBus | rdma_final_project/rdma_tx/Vitis/rdma_tx_app/src/helloworld.c:281-321 | one iteration of either submission loop (here `(tail + 1) % 4`; `tail + 1` in the loopback harness, main.c lines 222-272) writes SQ_TAIL := next tail first, then CQ_HEAD := cq_tail_after exactly when CQ_TAIL moved (CQ_HEAD otherwise unchanged), and touches no other register |
| QueuePair.RunBus | rdma_final_project/rdma_tx/Vitis/rdma_tx_app/src/helloworld.c:277-324 | every write the submission loop issues targets SQ_TAIL or CQ_HEAD, none a hardware-owned register, the log only grows, and bases and sizes stay as configured (the loopback loop, main.c lines 213-311, is the same with rule `tail + 1`) |
| QueuePair.RunCqHead | subparts_for_testing/rdma_logic/Vitis/dma_mover/src/main.c:257-272 | after the iterations CQ_HEAD holds the CQ_TAIL read of the last iteration in which CQ_TAIL moved, or its old value if none did; the same holds for the ring harness, helloworld.c lines 310-321 |
| MemoryLayout.WithinIsInclusion | subparts_for_testing/rdma_logic/Vitis/dma_mover/src/main.c:113 | a nonempty range lies within another exactly when every byte of it is a byte of the other (what "covered by the flush" means) |
| MemoryLayout.DisjointIsNoCommonByte | subparts_for_testing/rdma_logic/Vitis/dma_mover/src/main.c:160-202 | two nonempty ranges are disjoint exactly when no byte lies in both |
| MemoryLayout.EndToEndDisjoint | subparts_for_testing/rdma_logic/Vitis/dma_mover/src/main.c:164-197 | ranges laid end to end are pairwise disjoint |
| MemoryLayout.StridedDisjoint | subparts_for_testing/rdma_logic/Vitis/dma_mover/src/main.c:165-198 | ranges in consecutive slots of a fixed stride, none longer than the stride, are pairwise disjoint |
| Harness.PayloadWordInjective | subparts_for_testing/rdma_logic/Vitis/dma_mover/src/main.c:118-120 | below 64 Ki words the `0xDEAD0000 \| i` pattern gives every word a different value |
| Harness.PayloadPatternRepeats | rdma_final_project/rdma_tx/Vitis/rdma_tx_app/src/helloworld.c:175-179 | of the 0x40000 words the fill writes, word 0x10000 + j repeats word j and word 0x30000 + j repeats word 0x20000 + j, while word 0x20000 + j differs from word j (j < 0x10000): the pattern tells at most 64 Ki words apart |
| Harness.RdmaWrite | subparts_for_testing/rdma_logic/Vitis/dma_mover/src/main.c:160-202 | the image of an RDMA_WRITE descriptor carries the id in word 0, opcode 1 with zero flags in word 1, the source and destination addresses in words 2-5, the length in word 6 and zero in word 7 and the reserved words |
| Harness.PrepareSqBuffer | subparts_for_testing/rdma_logic/Vitis/dma_mover/src/main.c:98-202 | after the 256-word clear and the descriptor writes, slot k holds descriptor k and every later word is still 0xFFFFFFFF |
| Harness.SlotsClearedAndFlushed | subparts_for_testing/rdma_logic/Vitis/dma_mover/src/main.c:205 | each of the 16 SQ slots lies inside both the 256 cleared words and the `128 * 8` flushed bytes, and the two regions coincide |
| Harness.Setup | rdma_final_project/rdma_tx/Vitis/rdma_tx_app/src/helloworld.c:186-203 | after configure and enable: sizes and bases as written, SQ_TAIL = CQ_HEAD = 0, CTRL bit 0 set with every other CTRL bit kept, and no hardware-owned register written |
| LoopbackTest.SourceRangesValue | subparts_for_testing/rdma_logic/Vitis/dma_mover/src/main.c:164-199 | the four transfers read payload bytes [0,256), [256,768), [768,1280), [1280,1408) |
| LoopbackTest.SourcesInsidePayload | subparts_for_testing/rdma_logic/Vitis/dma_mover/src/main.c:118-121 | the source ranges are end to end and pairwise disjoint, and lie inside the 2048 filled words and the 8192 flushed bytes |
| LoopbackTest.DestinationsInsideRemote | subparts_for_testing/rdma_logic/Vitis/dma_mover/src/main.c:110-113 | the destination ranges sit in 0x1000-byte slots, are pairwise disjoint, and lie inside the 4096 cleared words and the 16384 flushed bytes |
| LoopbackTest.MatchesUpTo | subparts_for_testing/rdma_logic/Vitis/dma_mover/src/main.c:289-299 | the match count over n positions is at most n, and equals n exactly when every compared word agrees |
| LoopbackTest.WindowsEqual | subparts_for_testing/rdma_logic/Vitis/dma_mover/src/main.c:290-291 | the expected and actual sample windows are equal exactly when they agree word by word at `offset + i` (32-bit index) |
| LoopbackTest.CompareWords | subparts_for_testing/rdma_logic/Vitis/dma_mover/src/main.c:287-299 | the loop compares min(verify_words, 8) words; match_count + mismatch_count equals that number, and mismatch_count = 0 exactly when all compared words agree |
| LoopbackTest.CheckSample | subparts_for_testing/rdma_logic/Vitis/dma_mover/src/main.c:275-305 | the sample's counts add up to min(length_lo / 4, 8), and PASS holds exactly when the expected and actual windows are equal |
| LoopbackTest.VerifySample | subparts_for_testing/rdma_logic/Vitis/dma_mover/src/main.c:275-305 | the verification of one entry produces the counts of the reference comparison, and PASS exactly when the windows are equal |
| LoopbackTest.TestSamplesAreFull | subparts_for_testing/rdma_logic/Vitis/dma_mover/src/main.c:166-200 | every test descriptor is long enough for the full 8-word sample |
| LoopbackTest.TestSamplesInsideTransfers | subparts_for_testing/rdma_logic/Vitis/dma_mover/src/main.c:275-277 | the sampled words lie inside the transfer's source and destination ranges |
| LoopbackTest.IterateReport | subparts_for_testing/rdma_logic/Vitis/dma_mover/src/main.c:216-307 | an iteration writes tail + 1 and polls as the poll above; it reads a completion and checks the sample exactly when CQ_TAIL moved, the completion being the interpretation of CQ slot cq_tail_before and the sample that of the descriptor in the iteration's SQ slot |
| LoopbackTest.RunTail | subparts_for_testing/rdma_logic/Vitis/dma_mover/src/main.c:213-229 | starting from SQ_TAIL = 0, after k iterations SQ_TAIL is k |
| LoopbackTest.Session | subparts_for_testing/rdma_logic/Vitis/dma_mover/src/main.c:124-311 | a session has one report per iteration, extends the write log and writes no hardware-owned register |
| LoopbackTest.SessionTails | subparts_for_testing/rdma_logic/Vitis/dma_mover/src/main.c:128-229 | over a whole session the tails written are 1, 2, 3, 4, each below the configured size 8, and SQ_TAIL ends at the iteration count, whatever the engine does |
| LoopbackTest.SessionSamples | subparts_for_testing/rdma_logic/Vitis/dma_mover/src/main.c:263-307 | iteration k checks the sample of descriptor k exactly when CQ_TAIL moved, and checks nothing otherwise |
| LoopbackTest.FilledSamplesDistinct | subparts_for_testing/rdma_logic/Vitis/dma_mover/src/main.c:118-120 | with the payload filled as `0xDEAD0000 \| i`, the sample windows of two different descriptors differ, so a remote window holding another transfer's words fails the mismatch check of lines 288-301 |
| LoopbackTest.SessionCqHead | subparts_for_testing/rdma_logic/Vitis/dma_mover/src/main.c:128-272 | at the end of a session CQ_HEAD is 0, as configured, or a CQ_TAIL value the engine reported in some iteration: no completion is acknowledged that was not reported |
| RingTest.SourcesInsidePayload | rdma_final_project/rdma_tx/Vitis/rdma_tx_app/src/helloworld.c:220-264 | the four 4096-byte sources are end to end and disjoint, inside the filled words and the flushed bytes |
| RingTest.PayloadFlushCoversFill | rdma_final_project/rdma_tx/Vitis/rdma_tx_app/src/helloworld.c:177-181 | the flushed byte range is exactly the words written: 1 MiB, not the 16 KiB (0x4000) the comment beside the call gives |
| RingTest.DestinationsTileRemote | rdma_final_project/rdma_tx/Vitis/rdma_tx_app/src/helloworld.c:169-172 | the destinations start at the remote base, are end to end and disjoint, lie in the cleared and flushed region, and the last ends exactly at its 16384th byte |
| RingTest.CqSlotsCleared | rdma_final_project/rdma_tx/Vitis/rdma_tx_app/src/helloworld.c:162-165 | every slot of the 4-entry completion ring lies inside the cleared CQ words |
| RingTest.NextTailAfter | rdma_final_project/rdma_tx/Vitis/rdma_tx_app/src/helloworld.c:285 | one ring doorbell takes the tail k mod 4 to (k + 1) mod 4 |
| RingTest.EntryIndexIsTail | rdma_final_project/rdma_tx/Vitis/rdma_tx_app/src/helloworld.c:277-278 | for each of the 16 iterations `test_idx & 0x3` equals the tail before the doorbell, k mod 4 |
| RingTest.SubmittedSlotHoldsDescriptor | rdma_final_project/rdma_tx/Vitis/rdma_tx_app/src/helloworld.c:277-290 | the slot the doorbell hands to the engine holds the descriptor the iteration reuses |
| RingTest.IterateReport | rdma_final_project/rdma_tx/Vitis/rdma_tx_app/src/helloworld.c:285-321 | an iteration writes the ring successor of the tail, below 4, and reuses a descriptor index below 4; it reports TIMEOUT exactly when the poll timed out, and then after exactly `timeout` polls; it acknowledges exactly when CQ_TAIL moved |
| RingTest.RunTail | rdma_final_project/rdma_tx/Vitis/rdma_tx_app/src/helloworld.c:281-290 | starting from SQ_TAIL = 0, after k iterations SQ_TAIL is k mod 4 |
| RingTest.Session | rdma_final_project/rdma_tx/Vitis/rdma_tx_app/src/helloworld.c:186-324 | a session leaves both ring sizes at 4 and writes no hardware-owned register |
| RingTest.SessionTail | rdma_final_project/rdma_tx/Vitis/rdma_tx_app/src/helloworld.c:277-290 | the session ends with SQ_TAIL = iterations mod 4, back at 0 after all sixteen |
| RingTest.SessionIterationTails | rdma_final_project/rdma_tx/Vitis/rdma_tx_app/src/helloworld.c:278-285 | iteration k reuses descriptor k mod 4 and writes tail (k + 1) mod 4, below the configured SQ size |
| RingTest.SessionAcks | rdma_final_project/rdma_tx/Vitis/rdma_tx_app/src/helloworld.c:293-321 | iteration k acknowledges exactly when CQ_TAIL moved, and prints TIMEOUT exactly when all 1000000 SQ_HEAD reads returned the head before |
| RingTest.IterationOutcome | rdma_final_project/rdma_tx/Vitis/rdma_tx_app/src/helloworld.c:297-308 | an iteration times out exactly when every read of the poll returns the head before |
| RingTest.SessionCqHead | rdma_final_project/rdma_tx/Vitis/rdma_tx_app/src/helloworld.c:186-321 | at the end of a session CQ_HEAD is 0, as configured, or a CQ_TAIL value the engine reported in some iteration |
| IpEncapsulator.RegisterMapWellFormed | subparts_for_testing/ip_encapsulator/Vitis/bram_test/src/ip_encapsulator_driver.h:7-19 | the register offsets are word aligned and strictly increasing, and each counter's high word follows its low word |
| IpEncapsulator.EnableControl | subparts_for_testing/ip_encapsulator/Vitis/bram_test/src/ip_encapsulator_driver.c:108-113 | the written control word decodes as enabled with loopback and IRQ enable unchanged, and differs from the read word in no bit but bit 0 |
| IpEncapsulator.DisableControl | subparts_for_testing/ip_encapsulator/Vitis/bram_test/src/ip_encapsulator_driver.c:119-123 | the written control word decodes as disabled with the other flags unchanged, and differs in no bit but bit 0 |
| IpEncapsulator.EnableDisableIdempotent | subparts_for_testing/ip_encapsulator/Vitis/bram_test/src/ip_encapsulator_driver.c:108-123 | enabling twice equals enabling once; disabling twice equals disabling once |
| IpEncapsulator.EnableDisableInverse | subparts_for_testing/ip_encapsulator/Vitis/bram_test/src/ip_encapsulator_driver.c:108-123 | disable then enable restores the word exactly when it was enabled, and enable then disable exactly when it was disabled |
| IpEncapsulator.ClearCountersWrites | subparts_for_testing/ip_encapsulator/Vitis/bram_test/src/ip_encapsulator_driver.c:129-140 | two writes: first with bit 2 set, then with bit 2 clear, both otherwise equal to the word read |
| IpEncapsulator.ClearCountersFinal | subparts_for_testing/ip_encapsulator/Vitis/bram_test/src/ip_encapsulator_driver.c:137 | the final control word equals the original exactly when bit 2 was clear; the reported flags are unchanged; a second pulse ends in the same word |
| IpEncapsulator.BringUpWrites | subparts_for_testing/ip_encapsulator/Vitis/bram_test/src/main.c:114-118 | clear_counters then enable leaves the control word enabled, with clear-counters low and all other bits as they were |
| IpEncapsulator.DecodeStatusLowBits | subparts_for_testing/ip_encapsulator/Vitis/bram_test/src/ip_encapsulator_driver.c:182-185 | only status bits [2:0] affect the reported ready, lookup-error and IRQ-pending flags |
| IpEncapsulator.ReadCounter | subparts_for_testing/ip_encapsulator/Vitis/bram_test/src/ip_encapsulator_driver.c:152-156 | the low 32 bits of the assembled count are the LO register and the high 32 bits the HI register |
| IpEncapsulator.ReadPacketCount | subparts_for_testing/ip_encapsulator/Vitis/bram_test/src/ip_encapsulator_driver.c:152-156 | the packet count's halves are the values of the PKT_COUNT_LO and PKT_COUNT_HI registers |
| IpEncapsulator.ReadByteCount | subparts_for_testing/ip_encapsulator/Vitis/bram_test/src/ip_encapsulator_driver.c:161-165 | the byte count's halves are the values of the BYTE_COUNT_LO and BYTE_COUNT_HI registers |
| IpEncapsulator.ReadCounterExact | subparts_for_testing/ip_encapsulator/Vitis/bram_test/src/ip_encapsulator_driver.c:155 | when the registers hold the halves of a 64-bit count, exactly that count is assembled |
| IpEncapsulator.BramIndex | subparts_for_testing/ip_encapsulator/Vitis/bram_test/src/ip_encapsulator_driver.c:18-20 | the index is the XOR of the IP's two least significant bytes, the first two bytes of its little-endian image |
| IpEncapsulator.BramIndexLow16 | subparts_for_testing/ip_encapsulator/Vitis/bram_test/src/ip_encapsulator_driver.c:18-20 | IPs that agree in their low 16 bits share an index |
| IpEncapsulator.BramIndexSameSubnet | subparts_for_testing/ip_encapsulator/Vitis/bram_test/src/ip_encapsulator_driver.c:18-20 | distinct IPs that differ only in the last byte never share an index |
| IpEncapsulator.WordAddressInjective | subparts_for_testing/ip_encapsulator/Vitis/bram_test/src/ip_encapsulator_driver.c:58-61 | the eight word addresses `addr + i*4` of an entry are distinct, even across the 2^32 wrap |
| IpEncapsulator.EntriesDisjoint | subparts_for_testing/ip_encapsulator/Vitis/bram_test/src/ip_encapsulator_driver.c:41 | no word of the entry at one index is a word of the entry at another, for every BRAM base |
| IpEncapsulator.DstMacRoundTrip | subparts_for_testing/ip_encapsulator/Vitis/bram_test/src/ip_encapsulator_driver.c:89-90 | the destination MAC split over words 5 and 4 is reassembled to its low 48 bits, whatever the source MAC put in word 4 |
| IpEncapsulator.SrcMacRoundTrip | subparts_for_testing/ip_encapsulator/Vitis/bram_test/src/ip_encapsulator_driver.c:93-94 | the source MAC split over words 4 and 3 is reassembled to its low 48 bits, whatever the destination MAC put in word 4 |
| IpEncapsulator.PackEndpoint | subparts_for_testing/ip_encapsulator/Vitis/bram_test/src/ip_encapsulator_driver.c:44-55 | a packed entry has words 0-2 zero and word 7 = 0x80000000, and unpacks to valid = 1, the IP and the low 48 bits of both MACs |
| IpEncapsulator.UnpackEndpoint | subparts_for_testing/ip_encapsulator/Vitis/bram_test/src/ip_encapsulator_driver.c:82-94 | whatever the words, the parsed valid flag is 0 or 1 and both parsed MAC addresses fit in 48 bits |
| IpEncapsulator.PackUnpackExact | subparts_for_testing/ip_encapsulator/Vitis/bram_test/src/ip_encapsulator_driver.c:44-94 | the round trip returns exactly (1, ip, dst_mac, src_mac) if and only if both MACs fit in 48 bits |
| IpEncapsulator.UnpackPack | subparts_for_testing/ip_encapsulator/Vitis/bram_test/src/ip_encapsulator_driver.c:83-94 | every entry with words 0-2 zero and word 7 = 0x80000000 parses as valid and is the packing of what it parses to |
| IpEncapsulator.StoreWords | subparts_for_testing/ip_encapsulator/Vitis/bram_test/src/ip_encapsulator_driver.c:58-61 | after i iterations of the write loop, words 0 .. i-1 are at their addresses and every other address keeps its word |
| IpEncapsulator.StoreEntry | subparts_for_testing/ip_encapsulator/Vitis/bram_test/src/ip_encapsulator_driver.c:58-61 | the read loop at the same address returns the eight words written, and no address outside the entry changes |
| IpEncapsulator.WriteEndpointEntry | subparts_for_testing/ip_encapsulator/Vitis/bram_test/src/ip_encapsulator_driver.c:38-65 | the slot the IP hashes to holds the packed entry and nothing outside that slot changes |
| IpEncapsulator.ReadEndpointEntry | subparts_for_testing/ip_encapsulator/Vitis/bram_test/src/ip_encapsulator_driver.c:70-94 | the read at any index reports a valid flag of 0 or 1 and MAC addresses of at most 48 bits; what it reads back after a write is WriteThenRead |
| IpEncapsulator.WriteThenRead | subparts_for_testing/ip_encapsulator/Vitis/bram_test/src/ip_encapsulator_driver.c:70-94 | reading back the slot an endpoint was written to parses to (1, ip, dst_mac, src_mac) for 48-bit MACs |
| IpEncapsulator.WriteKeepsOtherSlots | subparts_for_testing/ip_encapsulator/Vitis/bram_test/src/ip_encapsulator_driver.c:40-61 | writing an endpoint leaves the entry at every other index word for word unchanged |
| IpEncapsulator.TestIndices | subparts_for_testing/ip_encapsulator/Vitis/bram_test/src/main.c:19-25 | 0xC0A80164 hashes to 0x65 and 0xC0A80165 to 0x64 |
| IpEncapsulator.TestEntriesReadBack | subparts_for_testing/ip_encapsulator/Vitis/bram_test/src/main.c:86-105 | after both test writes, on any BRAM contents and any base, each slot reads back as the endpoint written to it: the second write does not clobber the first |

## Code and comments

Where a comment and the code disagree, the model follows the code.
- `ip_encapsulator_driver.c:30-36` and `ip_encapsulator_driver.h:32-36` describe a 192-bit entry. The code instead writes eight 32-bit words:
  - word 3 holds source MAC bits [31:0];
  - word 4 holds destination MAC bits [15:0] over source MAC bits [47:32];
  - word 5 holds destination MAC bits [47:16];
  - word 6 holds the IP;
  - word 7 holds the valid bit.
- `helloworld.c:180` says the payload flush covers 16 KiB. The call flushes `4096 * 64 * 4` bytes, which is 1 MiB, exactly the words the loop before it fills (`RingTest.PayloadFlushCoversFill`).

## Left out

- Console output: `print_sq_entry`, `print_cq_entry`, `print_status` and every `printf`/`xil_printf`. Only the field extractions they perform are modelled (`RingEntry.Interpret`, `IpEncapsulator.DecodeControl`, `IpEncapsulator.DecodeStatus`).
- `Xil_In32`/`Xil_Out32` are register reads and writes on a `Bus` record: a register file plus a log of writes.
  - Volatile access order within an expression, and bus timing, are not modelled.
  - Software-owned registers (SQ_TAIL, CTRL, CQ_HEAD) are assumed to read back the value last written.
  - Hardware-owned values are inputs: SQ_HEAD reads, CQ_TAIL reads, CQ contents and the remote buffer.
- Cache maintenance (`Xil_DCacheFlushRange`/`InvalidateRange`) is modelled only as byte-range coverage.
- The invalidate at `dma_mover/src/main.c:261` is not modelled. It passes `&cq_buf`, the address of the pointer variable, so it does not cover the CQ.
- The delay loops (`nop` loops, the 10000-iteration wait) take time and have no other effect.
- The timing and throughput arithmetic in `helloworld.c:275-351` is not modelled. It uses a platform clock, 64-bit fixed-point and `double` macros (lines 56-57), and is diagnostic only.
- `SetupMacAddress`, the commented-out `configure_tx`, the BRAM access check and the endless monitoring loop of the test program are register pokes and console loops with nothing to prove.
- Not modelled: the Ethernet receive applications, the timer BSP configuration and the documentation scripts.
- IpEncapsulator.BringUpWrites: `enable_ip_encapsulator` re-reads CONTROL after `clear_counters`. The model feeds it the word `clear_counters` last wrote, so it assumes the encapsulator's CONTROL register reads back the last word written, as the data mover's software-owned registers do above.
- IpEncapsulator.ReadCounter: the LO and HI registers are taken as one snapshot. A carry between the two reads, which the C code does not guard against, is not modelled.
- IpEncapsulator.DecodeStatus: `read_status` is a plain register read, so only the decoding of its bits is modelled.
- IpEncapsulator.TestEntriesReadBack: it proves that the written entries read back. The test program only prints them; it compares nothing.
- The sample verification in the loopback harness reads `payload_buf` and `remote_buf` through word views supplied as inputs. Whether the engine actually copied the data is hardware behaviour, not modelled.
- LoopbackTest.IterateReport: the completion entry is read at `cq_buf[cq_tail_before]` as a word view, without the cache invalidate before it.

=== FILE: bits.dfy ===
/** Fixed-width word helpers shared by the ring-entry codec, the queue-pair
    register model and the IP-encapsulator driver.

    The driver runs on a little-endian Cortex-A53 and manipulates `uint8_t`,
    `uint16_t`, `uint32_t` and `uint64_t` values with masks and shifts; they
    are modelled as `bv8`, `bv16`, `bv32` and `bv64`, so the C code's
    wrap-around is the bit-vectors' own, and every truncating cast is an
    explicit mask followed by a narrowing conversion. */
module Bits {

  /** Size of the 32-bit unsigned address space: `uint32_t` and `UINTPTR`
      sums wrap modulo this. */
  const ADDRESS_SPACE: int := 0x1_0000_0000

  /** A 32-bit byte address. */
  type Addr = a: nat | a < 0x1_0000_0000

  /** `(uint32_t)x`: the low half of a 64-bit value. */
  function Lo32(x: bv64): bv32 {
    (x & 0xFFFF_FFFF) as bv32
  }

  /** `(uint32_t)(x >> 32)`: the high half of a 64-bit value. */
  function Hi32(x: bv64): bv32 {
    (x >> 32) as bv32
  }

  lemma JoinLo32(hi: bv32, lo: bv32)
    ensures Lo32((hi as bv64 << 32) | lo as bv64) == lo
  {
  }

  lemma JoinHi32(hi: bv32, lo: bv32)
    ensures Hi32((hi as bv64 << 32) | lo as bv64) == hi
  {
  }

  /** `((uint64_t)hi << 32) | lo`: a 64-bit value assembled from two words. */
  function Join64(hi: bv32, lo: bv32): (r: bv64)
    ensures Lo32(r) == lo
    ensures Hi32(r) == hi
  {
    JoinLo32(hi, lo);
    JoinHi32(hi, lo);
    (hi as bv64 << 32) | lo as bv64
  }

  /** Splitting a 64-bit value and joining the halves gives it back. */
  lemma SplitJoin64(x: bv64)
    ensures Join64(Hi32(x), Lo32(x)) == x
  {
  }

  /** Bits [15:0] of a word. */
  function Lo16(w: bv32): bv16 {
    (w & 0xFFFF) as bv16
  }

  /** Bits [31:16] of a word. */
  function Hi16(w: bv32): bv16 {
    (w >> 16) as bv16
  }

  lemma JoinLo16(hi: bv16, lo: bv16)
    ensures Lo16((hi as bv32 << 16) | lo as bv32) == lo
  {
  }

  lemma JoinHi16(hi: bv16, lo: bv16)
    ensures Hi16((hi as bv32 << 16) | lo as bv32) == hi
  {
  }

  /** The word whose bits [15:0] are `lo` and bits [31:16] are `hi`, as a
      little-endian `uint16_t` pair lays it out. */
  function Join32(hi: bv16, lo: bv16): (r: bv32)
    ensures Lo16(r) == lo
    ensures Hi16(r) == hi
  {
    JoinLo16(hi, lo);
    JoinHi16(hi, lo);
    (hi as bv32 << 16) | lo as bv32
  }

  /** Splitting a word into halves and joining them gives it back. */
  lemma SplitJoin32(w: bv32)
    ensures Join32(Hi16(w), Lo16(w)) == w
  {
  }

  /** `a` and `b` agree in every bit outside `mask`. */
  predicate AgreeOutside(a: bv32, b: bv32, mask: bv32) {
    (a ^ b) & !mask == 0
  }

  /** `w | mask`: the bits of `mask` are set, every other bit is kept. */
  function SetBits(w: bv32, mask: bv32): (r: bv32)
    ensures r & mask == mask
    ensures AgreeOutside(r, w, mask)
  {
    w | mask
  }

  /** `w & ~mask`: the bits of `mask` are cleared, every other bit is kept. */
  function ClearBits(w: bv32, mask: bv32): (r: bv32)
    ensures r & mask == 0
    ensures AgreeOutside(r, w, mask)
  {
    w & !mask
  }

  /** Little-endian byte image of a `uint16_t`: the lowest address holds bits [7:0]. */
  function LeBytes16(h: bv16): (bs: seq<bv8>)
    ensures |bs| == 2
  {
    [(h & 0xFF) as bv8, (h >> 8) as bv8]
  }

  /** Little-endian byte image of a `uint32_t`. */
  function LeBytes32(w: bv32): (bs: seq<bv8>)
    ensures |bs| == 4
  {
    [(w & 0xFF) as bv8, ((w >> 8) & 0xFF) as bv8, ((w >> 16) & 0xFF) as bv8, (w >> 24) as bv8]
  }

  /** Little-endian byte image of a `uint64_t`. */
  function LeBytes64(x: bv64): (bs: seq<bv8>)
    ensures |bs| == 8
  {
    [(x & 0xFF) as bv8, ((x >> 8) & 0xFF) as bv8, ((x >> 16) & 0xFF) as bv8, ((x >> 24) & 0xFF) as bv8,
     ((x >> 32) & 0xFF) as bv8, ((x >> 40) & 0xFF) as bv8, ((x >> 48) & 0xFF) as bv8, (x >> 56) as bv8]
  }

  /** In memory a word's bytes are its low half's bytes followed by its high
      half's bytes. */
  lemma LeBytes32Halves(w: bv32)
    ensures LeBytes32(w) == LeBytes16(Lo16(w)) + LeBytes16(Hi16(w))
  {
  }

  /** In memory a 64-bit value's bytes are the bytes of its low word followed
      by the bytes of its high word. */
  lemma LeBytes64Halves(x: bv64)
    ensures LeBytes64(x) == LeBytes32(Lo32(x)) + LeBytes32(Hi32(x))
  {
    LowWordBytes(x);
    HighWordBytes(x);
  }

  lemma LowWordBytes(x: bv64)
    ensures LeBytes64(x)[..4] == LeBytes32(Lo32(x))
  {
  }

  lemma HighWordBytes(x: bv64)
    ensures LeBytes64(x)[4..] == LeBytes32(Hi32(x))
  {
  }

  /** The byte image of an array of `uint32_t` as it sits in memory. */
  function WordsToBytes(ws: seq<bv32>): (bs: seq<bv8>)
    ensures |bs| == 4 * |ws|
  {
    if |ws| == 0 then [] else LeBytes32(ws[0]) + WordsToBytes(ws[1..])
  }

  /** The byte image of two consecutive word arrays is the concatenation of
      their images. */
  lemma {:induction false} WordsToBytesAppend(a: seq<bv32>, b: seq<bv32>)
    ensures WordsToBytes(a + b) == WordsToBytes(a) + WordsToBytes(b)
    decreases |a|
  {
    if |a| == 0 {
      assert a + b == b;
    } else {
      assert (a + b)[1..] == a[1..] + b;
      WordsToBytesAppend(a[1..], b);
    }
  }

  /** Word `i` of an array occupies bytes `4*i .. 4*i+4` of its image. */
  lemma {:induction false} WordsToBytesAt(ws: seq<bv32>, i: nat)
    requires i < |ws|
    ensures WordsToBytes(ws)[4 * i .. 4 * i + 4] == LeBytes32(ws[i])
    decreases i
  {
    if i > 0 {
      WordsToBytesAt(ws[1..], i - 1);
      assert WordsToBytes(ws) == LeBytes32(ws[0]) + WordsToBytes(ws[1..]);
    }
  }

  /** A slice is the concatenation of its two parts. */
  lemma SliceSplit<T>(s: seq<T>, a: nat, b: nat, c: nat)
    requires a <= b <= c <= |s|
    ensures s[a..c] == s[a..b] + s[b..c]
  {
  }
}

=== FILE: harness.dfy ===
/** What the two queue-pair test applications share: the submit-queue and
    payload buffers at the same addresses, the same buffer preparation, the
    same register set-up and the same poll timeout. The applications differ
    in their completion and remote buffers, ring sizes, descriptors and
    submission loops (`LoopbackTest`, `RingTest`). */
module Harness {
  import opened Bits
  import opened RingEntry
  import opened QueuePair
  import opened MemoryLayout

  const SQ_BUFFER_BASE: bv32 := 0x1000_0000
  const PAYLOAD_BUFFER_BASE: bv32 := 0x3000_0000

  /** The buffer bases as byte addresses. */
  const SQ_START: int := SQ_BUFFER_BASE as int
  const PAYLOAD_START: int := PAYLOAD_BUFFER_BASE as int

  /** SQ_HEAD is polled at most this many times per submission. */
  const POLL_TIMEOUT: nat := 1000000

  /** The SQ buffer is cleared as 16 entries of 16 words and flushed as
      `128 * 8` bytes. */
  const SQ_SLOTS: nat := 16
  const SQ_CLEAR_WORDS: nat := 16 * 16
  const SQ_FLUSH_BYTES: nat := 128 * 8

  /** The remote buffer is cleared as 4096 words and flushed as 16384 bytes. */
  const REMOTE_WORDS: nat := 4096
  const REMOTE_FLUSH_BYTES: nat := 16384

  /** `0xDEAD0000 | i`: the pattern payload word `i` is filled with. */
  function PayloadWord(i: bv32): bv32 {
    0xDEAD_0000 | i
  }

  lemma PayloadWordLowHalf(i: bv32)
    requires i < 0x1_0000
    ensures PayloadWord(i) & 0xFFFF == i
  {
  }

  /** Within the first 64 Ki words the pattern tells every word apart, so a
      transfer that reads from the wrong source offset cannot pass a sample
      comparison by accident. */
  lemma PayloadWordInjective(i: bv32, j: bv32)
    requires i < 0x1_0000 && j < 0x1_0000
    ensures PayloadWord(i) == PayloadWord(j) <==> i == j
  {
    PayloadWordLowHalf(i);
    PayloadWordLowHalf(j);
  }

  /** Beyond 64 Ki words the index runs into the `0xDEAD` half. Bit 16 is
      already set in `0xDEAD0000` and bit 17 is not, so among the 0x40000
      words the TX harness fills, word `0x10000 + j` repeats word `j` and word
      `0x30000 + j` repeats word `0x20000 + j`, while the two halves differ:
      the fill holds 0x20000 distinct values, not 0x40000. */
  lemma PayloadPatternRepeats(j: bv32)
    requires j < 0x1_0000
    ensures PayloadWord(0x1_0000 + j) == PayloadWord(j)
    ensures PayloadWord(0x3_0000 + j) == PayloadWord(0x2_0000 + j)
    ensures PayloadWord(0x2_0000 + j) != PayloadWord(j)
  {
  }

  /** An RDMA_WRITE descriptor with flags, `length_hi` and the reserved
      words zero, as both applications write them: the image the engine
      fetches carries opcode 1 with no flags in word 1, the addresses in
      words 2-5 and the length in word 6. */
  function RdmaWrite(id: bv32, source: bv64, destination: bv64, length: bv32): (e: SqEntry)
    ensures var w := EncodeSq(e);
      w[0] == id && w[1] == OPCODE_RDMA_WRITE as bv32 && w[6] == length && w[7] == 0 && w[8..] == NO_RESERVED
    ensures var w := EncodeSq(e); Join64(w[3], w[2]) == source && Join64(w[5], w[4]) == destination
  {
    SqEntry(id, OPCODE_RDMA_WRITE, 0, source, destination, length, 0, NO_RESERVED)
  }

  /** The SQ buffer after the clear loop: every word `0xffffffff`. */
  function ClearedSqBuffer(): (buf: seq<bv32>)
    ensures |buf| == SQ_CLEAR_WORDS
    ensures forall i :: 0 <= i < |buf| ==> buf[i] == 0xFFFF_FFFF
  {
    seq(SQ_CLEAR_WORDS, _ => 0xFFFF_FFFF)
  }

  /** The SQ buffer after the descriptors `es` were written into slots
      `0 .. |es| - 1` of the cleared buffer. */
  function PrepareSqBuffer(es: seq<SqEntry>): (buf: seq<bv32>)
    requires |es| <= SQ_SLOTS
    ensures |buf| == SQ_CLEAR_WORDS
    ensures forall k :: 0 <= k < |es| ==> LoadSq(buf, k) == es[k]
    ensures forall i :: SQ_ENTRY_WORDS * |es| <= i < |buf| ==> buf[i] == 0xFFFF_FFFF
  {
    StoreAll(ClearedSqBuffer(), es)
  }

  /** The bytes of SQ slot `k`. */
  function SlotRange(k: nat): (r: Range)
    ensures r.start == SQ_START + SQ_ENTRY_BYTES * k && r.len == SQ_ENTRY_BYTES
  {
    Range(SQ_START + SQ_ENTRY_BYTES * k, SQ_ENTRY_BYTES)
  }

  /** Each of the 16 slots lies inside both the cleared words and the
      flushed bytes of the SQ buffer, so the engine reads every descriptor
      as written; the flush covers exactly the cleared words. */
  lemma SlotsClearedAndFlushed(k: nat)
    requires k < SQ_SLOTS
    ensures SlotRange(k).Within(WordRange(SQ_START, SQ_CLEAR_WORDS))
    ensures SlotRange(k).Within(Range(SQ_START, SQ_FLUSH_BYTES))
    ensures WordRange(SQ_START, SQ_CLEAR_WORDS) == Range(SQ_START, SQ_FLUSH_BYTES)
  {
  }

  /** Configure both rings with `ringSize` slots (SQ at the shared SQ
      buffer, CQ at `cqBase`), reset the cursors, then set global enable. */
  function Setup(initial: Bus, cqBase: bv32, ringSize: bv32): (b: Bus)
    ensures b.regs[REG_SQ_TAIL] == 0 && b.regs[REG_CQ_HEAD] == 0
    ensures b.regs[REG_SQ_SIZE] == ringSize && b.regs[REG_CQ_SIZE] == ringSize
    ensures b.regs[REG_SQ_BASE_LO] == SQ_BUFFER_BASE && b.regs[REG_SQ_BASE_HI] == 0
    ensures b.regs[REG_CQ_BASE_LO] == cqBase && b.regs[REG_CQ_BASE_HI] == 0
    ensures b.regs[REG_CTRL] & GLOBAL_ENABLE == GLOBAL_ENABLE
    ensures AgreeOutside(b.regs[REG_CTRL], initial.regs[REG_CTRL], GLOBAL_ENABLE)
    ensures Extends(initial, b) && SoftwareOnly(b.writes[|initial.writes|..])
  {
    var c := Configure(initial, SQ_BUFFER_BASE, ringSize, cqBase, ringSize);
    var e := GlobalEnable(c);
    ExtendsSoftwareOnly(initial, c, e);
    e
  }
}

=== FILE: ip_encapsulator.dfy ===
/** The IP-encapsulator driver: the endpoint lookup table it keeps in block
    RAM, and the bit operations on the encapsulator's AXI-Lite registers.

    Each endpoint entry is 8 words (32 bytes) at `bram_base + index * 32`,
    the index being a hash of the destination IP. The BRAM is modelled as a
    function from byte address to the 32-bit word stored there; addresses
    are `uint32_t`, so their sums wrap modulo 2^32. */
module IpEncapsulator {
  import opened Bits

  // ---------------------------------------------------------------------
  // Register map and control/status bits

  const REG_CONTROL: bv32 := 0x00
  const REG_STATUS: bv32 := 0x04
  const REG_PKT_COUNT_LO: bv32 := 0x10
  const REG_PKT_COUNT_HI: bv32 := 0x14
  const REG_BYTE_COUNT_LO: bv32 := 0x18
  const REG_BYTE_COUNT_HI: bv32 := 0x1C
  const REG_BRAM_BASE: bv32 := 0x20
  const REG_BRAM_SIZE: bv32 := 0x24
  const REG_SQ_HEAD: bv32 := 0x30
  const REG_SQ_TAIL: bv32 := 0x34
  const REG_CQ_HEAD: bv32 := 0x38
  const REG_CQ_TAIL: bv32 := 0x3C
  const REG_IRQ_ACK: bv32 := 0x40

  const CTRL_ENABLE: bv32 := 0x1
  const CTRL_LOOPBACK: bv32 := 0x2
  const CTRL_CLEAR_COUNTERS: bv32 := 0x4
  const CTRL_IRQ_ENABLE: bv32 := 0x8

  const STATUS_READY: bv32 := 0x1
  const STATUS_LOOKUP_ERROR: bv32 := 0x2
  const STATUS_IRQ_PENDING: bv32 := 0x4

  /** The register offsets, in the order of the register map. */
  const REGISTER_MAP: seq<bv32> := [
    REG_CONTROL, REG_STATUS, REG_PKT_COUNT_LO, REG_PKT_COUNT_HI, REG_BYTE_COUNT_LO, REG_BYTE_COUNT_HI,
    REG_BRAM_BASE, REG_BRAM_SIZE, REG_SQ_HEAD, REG_SQ_TAIL, REG_CQ_HEAD, REG_CQ_TAIL, REG_IRQ_ACK]

  /** The registers are distinct, word aligned and strictly increasing, and
      each counter's high half is the word after its low half. */
  lemma RegisterMapWellFormed()
    ensures forall i :: 0 <= i < |REGISTER_MAP| ==> REGISTER_MAP[i] & 3 == 0
    ensures forall i, j :: 0 <= i < j < |REGISTER_MAP| ==> REGISTER_MAP[i] < REGISTER_MAP[j]
    ensures REG_PKT_COUNT_HI == REG_PKT_COUNT_LO + 4 && REG_BYTE_COUNT_HI == REG_BYTE_COUNT_LO + 4
  {
  }

  // ---------------------------------------------------------------------
  // Control and status words

  /** The control bits `print_status` reports. */
  datatype ControlFlags = ControlFlags(enabled: bool, loopback: bool, irqEnabled: bool)

  function DecodeControl(ctrl: bv32): ControlFlags {
    ControlFlags(ctrl & CTRL_ENABLE != 0, ctrl & CTRL_LOOPBACK != 0, ctrl & CTRL_IRQ_ENABLE != 0)
  }

  /** The status bits `print_status` reports. */
  datatype StatusFlags = StatusFlags(ready: bool, lookupError: bool, irqPending: bool)

  function DecodeStatus(status: bv32): StatusFlags {
    StatusFlags(status & STATUS_READY != 0, status & STATUS_LOOKUP_ERROR != 0, status & STATUS_IRQ_PENDING != 0)
  }

  /** Only the three low status bits carry meaning. */
  lemma DecodeStatusLowBits(status: bv32)
    ensures DecodeStatus(status) == DecodeStatus(status & 0x7)
  {
  }

  /** The control word `enable_ip_encapsulator` writes back. */
  function EnableControl(ctrl: bv32): (r: bv32)
    ensures DecodeControl(r) == DecodeControl(ctrl).(enabled := true)
    ensures AgreeOutside(r, ctrl, CTRL_ENABLE)
  {
    SetBits(ctrl, CTRL_ENABLE)
  }

  /** The control word `disable_ip_encapsulator` writes back. */
  function DisableControl(ctrl: bv32): (r: bv32)
    ensures DecodeControl(r) == DecodeControl(ctrl).(enabled := false)
    ensures AgreeOutside(r, ctrl, CTRL_ENABLE)
  {
    ClearBits(ctrl, CTRL_ENABLE)
  }

  /** Enabling or disabling twice is the same as once. */
  lemma EnableDisableIdempotent(ctrl: bv32)
    ensures EnableControl(EnableControl(ctrl)) == EnableControl(ctrl)
    ensures DisableControl(DisableControl(ctrl)) == DisableControl(ctrl)
  {
  }

  /** Disabling then enabling gives back exactly the words that were
      enabled, and enabling then disabling exactly those that were
      disabled: the two touch nothing but the enable bit. */
  lemma EnableDisableInverse(ctrl: bv32)
    ensures EnableControl(DisableControl(ctrl)) == ctrl <==> DecodeControl(ctrl).enabled
    ensures DisableControl(EnableControl(ctrl)) == ctrl <==> !DecodeControl(ctrl).enabled
  {
    if EnableControl(DisableControl(ctrl)) == ctrl {
      assert ctrl & CTRL_ENABLE != 0;
    }
    if DisableControl(EnableControl(ctrl)) == ctrl {
      assert ctrl & CTRL_ENABLE == 0;
    }
  }

  /** The two control words `clear_counters` writes, both derived from the
      control word it read: first with the clear bit set, then with it
      cleared, every other bit as read. */
  function ClearCountersWrites(ctrl: bv32): (ws: seq<bv32>)
    ensures |ws| == 2
    ensures ws[0] & CTRL_CLEAR_COUNTERS == CTRL_CLEAR_COUNTERS && ws[1] & CTRL_CLEAR_COUNTERS == 0
    ensures AgreeOutside(ws[0], ctrl, CTRL_CLEAR_COUNTERS)
    ensures AgreeOutside(ws[1], ctrl, CTRL_CLEAR_COUNTERS)
  {
    [SetBits(ctrl, CTRL_CLEAR_COUNTERS), ClearBits(ctrl, CTRL_CLEAR_COUNTERS)]
  }

  /** After the pulse the control word is the original one with the clear
      bit low, whatever that bit was before; the reported flags are
      unchanged and a second pulse leaves the same word. */
  lemma ClearCountersFinal(ctrl: bv32)
    ensures ClearCountersWrites(ctrl)[1] == ctrl <==> ctrl & CTRL_CLEAR_COUNTERS == 0
    ensures DecodeControl(ClearCountersWrites(ctrl)[1]) == DecodeControl(ctrl)
    ensures ClearCountersWrites(ClearCountersWrites(ctrl)[1])[1] == ClearCountersWrites(ctrl)[1]
  {
    var ws := ClearCountersWrites(ctrl);
    if ws[1] == ctrl {
      assert ctrl & CTRL_CLEAR_COUNTERS == 0;
    }
  }

  /** The control writes of the test's configuration step: `clear_counters`
      then `enable_ip_encapsulator`, the latter reading back the last word
      written. */
  function BringUpWrites(ctrl: bv32): (ws: seq<bv32>)
    ensures |ws| == 3
    ensures ws[2] & CTRL_ENABLE == CTRL_ENABLE && ws[2] & CTRL_CLEAR_COUNTERS == 0
    ensures AgreeOutside(ws[2], ctrl, CTRL_ENABLE | CTRL_CLEAR_COUNTERS)
  {
    var clear := ClearCountersWrites(ctrl);
    clear + [EnableControl(clear[1])]
  }

  // ---------------------------------------------------------------------
  // 64-bit counters

  /** A 64-bit counter read as its low word, then its high word. */
  function ReadCounter(mmio: bv32 -> bv32, ipBase: bv32, loOffset: bv32, hiOffset: bv32): (c: bv64)
    ensures Lo32(c) == mmio(ipBase + loOffset)
    ensures Hi32(c) == mmio(ipBase + hiOffset)
  {
    var lo := mmio(ipBase + loOffset);
    var hi := mmio(ipBase + hiOffset);
    Join64(hi, lo)
  }

  function ReadPacketCount(mmio: bv32 -> bv32, ipBase: bv32): (c: bv64)
    ensures Lo32(c) == mmio(ipBase + REG_PKT_COUNT_LO) && Hi32(c) == mmio(ipBase + REG_PKT_COUNT_HI)
  {
    ReadCounter(mmio, ipBase, REG_PKT_COUNT_LO, REG_PKT_COUNT_HI)
  }

  function ReadByteCount(mmio: bv32 -> bv32, ipBase: bv32): (c: bv64)
    ensures Lo32(c) == mmio(ipBase + REG_BYTE_COUNT_LO) && Hi32(c) == mmio(ipBase + REG_BYTE_COUNT_HI)
  {
    ReadCounter(mmio, ipBase, REG_BYTE_COUNT_LO, REG_BYTE_COUNT_HI)
  }

  /** When the two halves of a counter hold the halves of `count`, the
      assembled value is `count`: no 64-bit value is lost or confused. */
  lemma ReadCounterExact(mmio: bv32 -> bv32, ipBase: bv32, loOffset: bv32, hiOffset: bv32, count: bv64)
    requires mmio(ipBase + loOffset) == Lo32(count) && mmio(ipBase + hiOffset) == Hi32(count)
    ensures ReadCounter(mmio, ipBase, loOffset, hiOffset) == count
  {
    SplitJoin64(count);
  }

  // ---------------------------------------------------------------------
  // Lookup-table index and entry addresses

  const WORDS_PER_ENTRY: nat := 8

  /** `compute_bram_index`: bits [7:0] of the IP XOR bits [15:8], that is
      the XOR of the first two bytes of the IP's little-endian image, its two
      least significant bytes. */
  function BramIndex(ip: bv32): (index: bv8)
    ensures index == LeBytes32(ip)[0] ^ LeBytes32(ip)[1]
  {
    ((ip & 0xFF) ^ ((ip >> 8) & 0xFF)) as bv8
  }

  /** The index depends only on the low 16 bits of the IP. */
  lemma BramIndexMasked(ip: bv32)
    ensures BramIndex(ip) == BramIndex(ip & 0xFFFF)
  {
  }

  lemma BramIndexLow16(a: bv32, b: bv32)
    requires a & 0xFFFF == b & 0xFFFF
    ensures BramIndex(a) == BramIndex(b)
  {
    BramIndexMasked(a);
    BramIndexMasked(b);
  }

  /** Two IPs that differ only in their last byte never share a slot. */
  lemma BramIndexSameSubnet(a: bv32, b: bv32)
    requires a & 0xFFFF_FF00 == b & 0xFFFF_FF00 && a != b
    ensures BramIndex(a) != BramIndex(b)
  {
    assert (a >> 8) & 0xFF == (b >> 8) & 0xFF;
    assert a & 0xFF != b & 0xFF;
  }

  /** `bram_base + index * 32`. */
  function EntryAddress(bramBase: Addr, index: bv8): Addr {
    (bramBase + index as int * 32) % ADDRESS_SPACE
  }

  /** `addr + i * 4`: the address of word `i` of the entry at `addr`. */
  function WordAddress(addr: Addr, i: nat): Addr
    requires i < WORDS_PER_ENTRY
  {
    (addr + i * 4) % ADDRESS_SPACE
  }

  /** Adding after a wrap is the same as wrapping after the addition. */
  lemma WrapAdd(a: int, b: int)
    ensures (a % ADDRESS_SPACE + b) % ADDRESS_SPACE == (a + b) % ADDRESS_SPACE
  {
    var q := a / ADDRESS_SPACE;
    assert a == q * ADDRESS_SPACE + a % ADDRESS_SPACE;
    WrapShift(a % ADDRESS_SPACE + b, q);
  }

  lemma WrapShift(x: int, k: int)
    ensures (x + k * ADDRESS_SPACE) % ADDRESS_SPACE == x % ADDRESS_SPACE
  {
  }

  /** Two sums closer together than 2^32 wrap to the same address only if
      they are equal. */
  lemma WrapClose(a: int, b: int)
    requires a % ADDRESS_SPACE == b % ADDRESS_SPACE && -ADDRESS_SPACE < a - b < ADDRESS_SPACE
    ensures a == b
  {
    assert a == (a / ADDRESS_SPACE) * ADDRESS_SPACE + a % ADDRESS_SPACE;
    assert b == (b / ADDRESS_SPACE) * ADDRESS_SPACE + b % ADDRESS_SPACE;
  }

  /** The eight word addresses of an entry are distinct, wherever the entry
      lies. */
  lemma WordAddressInjective(addr: Addr, i: nat, j: nat)
    requires i < WORDS_PER_ENTRY && j < WORDS_PER_ENTRY && i != j
    ensures WordAddress(addr, i) != WordAddress(addr, j)
  {
    if WordAddress(addr, i) == WordAddress(addr, j) {
      WrapClose(addr + i * 4, addr + j * 4);
    }
  }

  /** Word `i` of slot `x` is `bram_base + x*32 + i*4`, wrapped once. */
  lemma EntryWordAddress(bramBase: Addr, x: bv8, i: nat)
    requires i < WORDS_PER_ENTRY
    ensures WordAddress(EntryAddress(bramBase, x), i) == (bramBase + x as int * 32 + i * 4) % ADDRESS_SPACE
  {
    WrapAdd(bramBase + x as int * 32, i * 4);
  }

  lemma SlotOffsetsDistinct(bramBase: int, x: int, y: int, i: int, j: int)
    requires 0 <= x < 256 && 0 <= y < 256 && x != y && 0 <= i < 8 && 0 <= j < 8
    ensures (bramBase + x * 32 + i * 4) % ADDRESS_SPACE != (bramBase + y * 32 + j * 4) % ADDRESS_SPACE
  {
    if (bramBase + x * 32 + i * 4) % ADDRESS_SPACE == (bramBase + y * 32 + j * 4) % ADDRESS_SPACE {
      WrapClose(bramBase + x * 32 + i * 4, bramBase + y * 32 + j * 4);
    }
  }

  /** No word of slot `x` is a word of a different slot `y`: the 256
      entries never overlap, even when the table wraps past the top of the
      address space. */
  lemma EntriesDisjoint(bramBase: Addr, x: bv8, y: bv8, i: nat, j: nat)
    requires x != y && i < WORDS_PER_ENTRY && j < WORDS_PER_ENTRY
    ensures WordAddress(EntryAddress(bramBase, x), i) != WordAddress(EntryAddress(bramBase, y), j)
  {
    EntryWordAddress(bramBase, x, i);
    EntryWordAddress(bramBase, y, j);
    SlotOffsetsDistinct(bramBase, x as int, y as int, i, j);
  }

  // ---------------------------------------------------------------------
  // Entry layout

  type EntryWords = w: seq<bv32> | |w| == 8 witness [0, 0, 0, 0, 0, 0, 0, 0]

  /** What `read_endpoint_entry` parses out of an entry. */
  datatype ParsedEntry = ParsedEntry(valid: bv8, ip: bv32, dstMac: bv64, srcMac: bv64)

  /** The 48 bits of a MAC address. */
  const MAC_MASK: bv64 := 0xFFFF_FFFF_FFFF

  /** Word 3: source MAC bits [31:0]. */
  function MacWord3(srcMac: bv64): bv32 {
    Lo32(srcMac)
  }

  /** Word 4: destination MAC bits [15:0] over source MAC bits [47:32]. */
  function MacWord4(dstMac: bv64, srcMac: bv64): bv32 {
    Lo32((dstMac & 0xFFFF) << 16) | Lo32((srcMac >> 32) & 0xFFFF)
  }

  /** Word 5: destination MAC bits [47:16]. */
  function MacWord5(dstMac: bv64): bv32 {
    Lo32(dstMac >> 16)
  }

  /** The destination MAC as the reader assembles it from words 4 and 5. */
  function ParseDstMac(w4: bv32, w5: bv32): bv64 {
    (w5 as bv64 << 16) | ((w4 >> 16) & 0xFFFF) as bv64
  }

  /** The source MAC as the reader assembles it from words 3 and 4. */
  function ParseSrcMac(w3: bv32, w4: bv32): bv64 {
    ((w4 & 0xFFFF) as bv64 << 32) | w3 as bv64
  }

  /** Bit 31 of word 7. */
  function ParseValid(w7: bv32): bv8 {
    ((w7 >> 31) & 1) as bv8
  }

  /** The words `write_endpoint_entry` writes: words 0 .. 2 zero, the MAC
      words 3 .. 5, the IP in word 6 and the valid bit alone in word 7. Every
      packed entry has the well-formed shape, and unpacking it gives a valid
      entry with the IP and the low 48 bits of both MAC addresses. */
  function PackEndpoint(ip: bv32, dstMac: bv64, srcMac: bv64): (w: EntryWords)
    ensures WellFormedEntry(w)
    ensures UnpackEndpoint(w) == ParsedEntry(1, ip, dstMac & MAC_MASK, srcMac & MAC_MASK)
  {
    DstMacRoundTrip(dstMac, srcMac);
    SrcMacRoundTrip(dstMac, srcMac);
    assert ParseValid(0x8000_0000) == 1;
    [0, 0, 0, MacWord3(srcMac), MacWord4(dstMac, srcMac), MacWord5(dstMac), ip, 0x8000_0000]
  }

  /** The parse of `read_endpoint_entry`: whatever the words, the valid flag
      is 0 or 1 and both MAC addresses fit in 48 bits. */
  function UnpackEndpoint(w: EntryWords): (p: ParsedEntry)
    ensures p.valid <= 1 && p.dstMac <= MAC_MASK && p.srcMac <= MAC_MASK
  {
    ParsedEntry(ParseValid(w[7]), w[6], ParseDstMac(w[4], w[5]), ParseSrcMac(w[3], w[4]))
  }

  /** The destination MAC survives its split over words 4 and 5, whatever
      the source MAC put in the low half of word 4, up to its 48 bits. */
  lemma DstMacRoundTrip(dstMac: bv64, srcMac: bv64)
    ensures ParseDstMac(MacWord4(dstMac, srcMac), MacWord5(dstMac)) == dstMac & MAC_MASK
  {
  }

  /** The source MAC survives its split over words 3 and 4, whatever the
      destination MAC put in the high half of word 4, up to its 48 bits. */
  lemma SrcMacRoundTrip(dstMac: bv64, srcMac: bv64)
    ensures ParseSrcMac(MacWord3(srcMac), MacWord4(dstMac, srcMac)) == srcMac & MAC_MASK
  {
  }

  lemma MaskIdentity(mac: bv64)
    ensures mac & MAC_MASK == mac <==> mac <= MAC_MASK
  {
  }

  /** The round trip is exact precisely for 48-bit MAC addresses. */
  lemma PackUnpackExact(ip: bv32, dstMac: bv64, srcMac: bv64)
    ensures UnpackEndpoint(PackEndpoint(ip, dstMac, srcMac)) == ParsedEntry(1, ip, dstMac, srcMac)
        <==> dstMac <= MAC_MASK && srcMac <= MAC_MASK
  {
    MaskIdentity(dstMac);
    MaskIdentity(srcMac);
  }

  /** An entry in the shape the driver writes. */
  predicate WellFormedEntry(w: EntryWords) {
    w[0] == 0 && w[1] == 0 && w[2] == 0 && w[7] == 0x8000_0000
  }

  /** The parsed MACs rebuild the three MAC words they were read from. */
  lemma MacWordsRoundTrip(w3: bv32, w4: bv32, w5: bv32)
    ensures MacWord3(ParseSrcMac(w3, w4)) == w3
    ensures MacWord4(ParseDstMac(w4, w5), ParseSrcMac(w3, w4)) == w4
    ensures MacWord5(ParseDstMac(w4, w5)) == w5
  {
  }

  /** Every well-formed entry is the packing of what it parses to. */
  lemma UnpackPack(w: EntryWords)
    requires WellFormedEntry(w)
    ensures UnpackEndpoint(w).valid == 1
    ensures PackEndpoint(UnpackEndpoint(w).ip, UnpackEndpoint(w).dstMac, UnpackEndpoint(w).srcMac) == w
  {
    MacWordsRoundTrip(w[3], w[4], w[5]);
    assert ParseValid(0x8000_0000) == 1;
  }

  // ---------------------------------------------------------------------
  // The lookup table in BRAM

  /** The word at each byte address of the BRAM window. */
  type Bram = Addr -> bv32

  /** Whether `a` is one of the eight word addresses of the entry at `addr`. */
  predicate InEntry(addr: Addr, a: Addr) {
    exists i :: 0 <= i < WORDS_PER_ENTRY && a == WordAddress(addr, i)
  }

  /** The eight words at `addr`, as the read loop fetches them. */
  function LoadEntry(m: Bram, addr: Addr): EntryWords {
    seq(8, i requires 0 <= i < 8 => m(WordAddress(addr, i)))
  }

  /** The first `n` iterations of the write loop: word `i` to `addr + i*4`
      for `i < n`. */
  function StoreWords(m: Bram, addr: Addr, w: EntryWords, n: nat): (r: Bram)
    requires n <= WORDS_PER_ENTRY
    ensures forall i :: 0 <= i < n ==> r(WordAddress(addr, i)) == w[i]
    ensures forall a: Addr :: (forall i :: 0 <= i < n ==> a != WordAddress(addr, i)) ==> r(a) == m(a)
    decreases n
  {
    if n == 0 then m
    else
      var prev := StoreWords(m, addr, w, n - 1);
      var target := WordAddress(addr, n - 1);
      forall i | 0 <= i < n - 1
        ensures WordAddress(addr, i) != target
      {
        WordAddressInjective(addr, i, n - 1);
      }
      (a: Addr) => if a == target then w[n - 1] else prev(a)
  }

  /** The whole write loop: the entry reads back as written, and no other
      address changes. */
  function StoreEntry(m: Bram, addr: Addr, w: EntryWords): (r: Bram)
    ensures LoadEntry(r, addr) == w
    ensures forall a: Addr :: !InEntry(addr, a) ==> r(a) == m(a)
  {
    StoreWords(m, addr, w, WORDS_PER_ENTRY)
  }

  /** `write_endpoint_entry`: pack the triple into the slot its IP hashes
      to. */
  function WriteEndpointEntry(m: Bram, bramBase: Addr, ip: bv32, dstMac: bv64, srcMac: bv64): (r: Bram)
    ensures LoadEntry(r, EntryAddress(bramBase, BramIndex(ip))) == PackEndpoint(ip, dstMac, srcMac)
    ensures forall a: Addr :: !InEntry(EntryAddress(bramBase, BramIndex(ip)), a) ==> r(a) == m(a)
  {
    StoreEntry(m, EntryAddress(bramBase, BramIndex(ip)), PackEndpoint(ip, dstMac, srcMac))
  }

  /** `read_endpoint_entry`: fetch and parse the slot at `index`. */
  function ReadEndpointEntry(m: Bram, bramBase: Addr, index: bv8): (p: ParsedEntry)
    ensures p.valid <= 1 && p.dstMac <= MAC_MASK && p.srcMac <= MAC_MASK
  {
    UnpackEndpoint(LoadEntry(m, EntryAddress(bramBase, index)))
  }

  /** Reading the slot an endpoint was just written to gives the endpoint
      back, for 48-bit MAC addresses. */
  lemma WriteThenRead(m: Bram, bramBase: Addr, ip: bv32, dstMac: bv64, srcMac: bv64)
    requires dstMac <= MAC_MASK && srcMac <= MAC_MASK
    ensures ReadEndpointEntry(WriteEndpointEntry(m, bramBase, ip, dstMac, srcMac), bramBase, BramIndex(ip))
         == ParsedEntry(1, ip, dstMac, srcMac)
  {
    PackUnpackExact(ip, dstMac, srcMac);
  }

  /** Writing an endpoint leaves every other slot exactly as it was. */
  lemma WriteKeepsOtherSlots(m: Bram, bramBase: Addr, ip: bv32, dstMac: bv64, srcMac: bv64, index: bv8)
    requires index != BramIndex(ip)
    ensures LoadEntry(WriteEndpointEntry(m, bramBase, ip, dstMac, srcMac), EntryAddress(bramBase, index))
         == LoadEntry(m, EntryAddress(bramBase, index))
  {
    var r := WriteEndpointEntry(m, bramBase, ip, dstMac, srcMac);
    var written := EntryAddress(bramBase, BramIndex(ip));
    var other := EntryAddress(bramBase, index);
    forall j | 0 <= j < WORDS_PER_ENTRY
      ensures r(WordAddress(other, j)) == m(WordAddress(other, j))
    {
      forall i | 0 <= i < WORDS_PER_ENTRY
        ensures WordAddress(other, j) != WordAddress(written, i)
      {
        EntriesDisjoint(bramBase, BramIndex(ip), index, i, j);
      }
    }
  }

  // ---------------------------------------------------------------------
  // The test program's table entries

  const TEST_IP_1: bv32 := 0xC0A8_0164
  const TEST_MAC_1: bv64 := 0xAABB_CCDD_EE01
  const SRC_MAC_1: bv64 := 0x1122_3344_5501
  const TEST_IP_2: bv32 := 0xC0A8_0165
  const TEST_MAC_2: bv64 := 0xAABB_CCDD_EE02
  const SRC_MAC_2: bv64 := 0x1122_3344_5502

  /** 192.168.1.100 and 192.168.1.101 hash to slots 0x65 and 0x64. */
  lemma TestIndices()
    ensures BramIndex(TEST_IP_1) == 0x65 && BramIndex(TEST_IP_2) == 0x64
  {
  }

  /** After the test writes both entries, reading back each slot gives the
      entry written to it: the second write does not clobber the first. */
  lemma TestEntriesReadBack(m: Bram, bramBase: Addr)
    ensures var after := WriteEndpointEntry(WriteEndpointEntry(m, bramBase, TEST_IP_1, TEST_MAC_1, SRC_MAC_1),
                                            bramBase, TEST_IP_2, TEST_MAC_2, SRC_MAC_2);
            ReadEndpointEntry(after, bramBase, BramIndex(TEST_IP_1)) == ParsedEntry(1, TEST_IP_1, TEST_MAC_1, SRC_MAC_1) &&
            ReadEndpointEntry(after, bramBase, BramIndex(TEST_IP_2)) == ParsedEntry(1, TEST_IP_2, TEST_MAC_2, SRC_MAC_2)
  {
    var first := WriteEndpointEntry(m, bramBase, TEST_IP_1, TEST_MAC_1, SRC_MAC_1);
    TestIndices();
    WriteThenRead(m, bramBase, TEST_IP_1, TEST_MAC_1, SRC_MAC_1);
    WriteThenRead(first, bramBase, TEST_IP_2, TEST_MAC_2, SRC_MAC_2);
    WriteKeepsOtherSlots(first, bramBase, TEST_IP_2, TEST_MAC_2, SRC_MAC_2, BramIndex(TEST_IP_1));
  }
}

=== FILE: loopback_test.dfy ===
/** The loopback harness of the data-mover test application: it fills a
    payload buffer, clears a "remote" buffer, writes four RDMA_WRITE
    descriptors into the submit queue, configures and enables the engine,
    then submits the descriptors one by one. For each it rings the doorbell,
    polls SQ_HEAD, acknowledges the completion when CQ_TAIL moved, and
    compares a sample of the destination words with the source words.

    What the engine does is not computed here: every value it produces —
    SQ_HEAD and CQ_TAIL reads, completion entries, the remote buffer after a
    transfer — arrives in an `Observation` carrying the `Buffers` it read.
    Software-owned registers are assumed to read back the value last
    written to them. */
module LoopbackTest {
  import opened Bits
  import opened RingEntry
  import opened QueuePair
  import opened MemoryLayout
  import opened Optional
  import opened Harness

  const CQ_BUFFER_BASE: bv32 := 0x2000_0000
  const REMOTE_BUFFER_BASE: bv32 := 0x4000_0000
  const REMOTE_START: int := REMOTE_BUFFER_BASE as int

  /** Both rings are configured with 8 slots. */
  const RING_SIZE: bv32 := 8

  const TEST_COUNT: nat := 4

  /** At most this many words of each transfer are compared. */
  const SAMPLE_LIMIT: nat := 8

  /** The payload buffer is filled as 2048 words and flushed as 8192 bytes. */
  const PAYLOAD_WORDS: nat := 2048
  const PAYLOAD_FLUSH_BYTES: nat := 8192

  /** A test descriptor: an RDMA_WRITE of `length` bytes from payload offset
      `srcOffset` to remote offset `dstOffset`, with every other field 0. */
  function Descriptor(id: bv32, srcOffset: bv64, dstOffset: bv64, length: bv32): SqEntry {
    RdmaWrite(id, PAYLOAD_BUFFER_BASE as bv64 + srcOffset, REMOTE_BUFFER_BASE as bv64 + dstOffset, length)
  }

  /** The four descriptors the harness writes into slots 0 .. 3. */
  const DESCRIPTORS: seq<SqEntry> := [
    Descriptor(0x0001_0001, 0, 0x0000, 256),
    Descriptor(0x0002_0002, 256, 0x1000, 512),
    Descriptor(0x0003_0003, 768, 0x2000, 512),
    Descriptor(0x0004_0004, 1280, 0x3000, 128)]

  function SourceRanges(): (rs: seq<Range>)
    ensures |rs| == TEST_COUNT
  {
    [SourceRange(DESCRIPTORS[0]), SourceRange(DESCRIPTORS[1]),
     SourceRange(DESCRIPTORS[2]), SourceRange(DESCRIPTORS[3])]
  }

  function DestRanges(): (rs: seq<Range>)
    ensures |rs| == TEST_COUNT
  {
    [DestRange(DESCRIPTORS[0]), DestRange(DESCRIPTORS[1]),
     DestRange(DESCRIPTORS[2]), DestRange(DESCRIPTORS[3])]
  }

  /** The transfers read the payload bytes [0, 256), [256, 768),
      [768, 1280) and [1280, 1408). */
  lemma SourceRangesValue()
    ensures SourceRanges() == [Range(PAYLOAD_START, 256), Range(PAYLOAD_START + 256, 512),
                               Range(PAYLOAD_START + 768, 512), Range(PAYLOAD_START + 1280, 128)]
  {
    assert SourceRange(DESCRIPTORS[0]) == Range(PAYLOAD_START, 256);
    assert SourceRange(DESCRIPTORS[1]) == Range(PAYLOAD_START + 256, 512);
    assert SourceRange(DESCRIPTORS[2]) == Range(PAYLOAD_START + 768, 512);
    assert SourceRange(DESCRIPTORS[3]) == Range(PAYLOAD_START + 1280, 128);
  }

  /** The transfers write 256, 512, 512 and 128 bytes at remote offsets
      0x0, 0x1000, 0x2000 and 0x3000. */
  lemma DestRangesValue()
    ensures DestRanges() == [Range(REMOTE_START, 256), Range(REMOTE_START + 0x1000, 512),
                             Range(REMOTE_START + 0x2000, 512), Range(REMOTE_START + 0x3000, 128)]
  {
    assert DestRange(DESCRIPTORS[0]) == Range(REMOTE_START, 256);
    assert DestRange(DESCRIPTORS[1]) == Range(REMOTE_START + 0x1000, 512);
    assert DestRange(DESCRIPTORS[2]) == Range(REMOTE_START + 0x2000, 512);
    assert DestRange(DESCRIPTORS[3]) == Range(REMOTE_START + 0x3000, 128);
  }

  /** The source windows are laid end to end, so they do not overlap, and
      all of them lie inside the payload words that were filled and the
      bytes that were flushed. */
  lemma SourcesInsidePayload()
    ensures EndToEnd(SourceRanges()) && PairwiseDisjoint(SourceRanges())
    ensures AllWithin(SourceRanges(), WordRange(PAYLOAD_START, PAYLOAD_WORDS))
    ensures AllWithin(SourceRanges(), Range(PAYLOAD_START, PAYLOAD_FLUSH_BYTES))
  {
    SourceRangesValue();
    EndToEndDisjoint(SourceRanges());
  }

  /** The destination windows sit in 0x1000-byte slots, so they do not
      overlap, and all of them lie inside the remote words that were cleared
      and the bytes that were flushed. */
  lemma DestinationsInsideRemote()
    ensures Strided(DestRanges(), REMOTE_START, 0x1000) && PairwiseDisjoint(DestRanges())
    ensures AllWithin(DestRanges(), WordRange(REMOTE_START, REMOTE_WORDS))
    ensures AllWithin(DestRanges(), Range(REMOTE_START, REMOTE_FLUSH_BYTES))
  {
    DestRangesValue();
    StridedDisjoint(DestRanges(), REMOTE_START, 0x1000);
  }

  /** `(key - base) / 4` in 64-bit unsigned arithmetic, stored in a
      `uint32_t`: the word index of `key` in the buffer at `base`. */
  function WordOffset(key: bv64, base: bv64): bv32 {
    Lo32((key - base) / 4)
  }

  /** Number of words compared: `verify_words`, capped at 8. */
  function SampleCount(verifyWords: nat): (n: nat)
    ensures n <= verifyWords && n <= SAMPLE_LIMIT
    ensures n == verifyWords || n == SAMPLE_LIMIT
  {
    if verifyWords < SAMPLE_LIMIT then verifyWords else SAMPLE_LIMIT
  }

  /** `n` consecutive words of a buffer from word `offset`, indexed in
      32-bit unsigned arithmetic as `buf[offset + i]` is. */
  function Window(mem: nat -> bv32, offset: nat, n: nat): (w: seq<bv32>)
    ensures |w| == n
  {
    seq(n, i requires 0 <= i < n => WordAt(mem, offset, i))
  }

  /** `buf[offset + i]`, the index wrapping as a 32-bit unsigned sum. */
  function WordAt(mem: nat -> bv32, offset: nat, i: nat): bv32 {
    mem((offset + i) % ADDRESS_SPACE)
  }

  /** Two windows are equal exactly when they agree word by word. */
  lemma WindowsEqual(expected: nat -> bv32, actual: nat -> bv32, eo: nat, ao: nat, n: nat)
    ensures Window(expected, eo, n) == Window(actual, ao, n) <==> Agree(expected, actual, eo, ao, n)
  {
    if Agree(expected, actual, eo, ao, n) {
      assert forall i :: 0 <= i < n ==> Window(expected, eo, n)[i] == Window(actual, ao, n)[i];
    }
    if Window(expected, eo, n) == Window(actual, ao, n) {
      forall i | 0 <= i < n
        ensures WordAt(actual, ao, i) == WordAt(expected, eo, i)
      {
        assert Window(expected, eo, n)[i] == Window(actual, ao, n)[i];
      }
    }
  }

  /** Word `eo + i` of `expected` equals word `ao + i` of `actual` for every
      `i < n`. */
  predicate Agree(expected: nat -> bv32, actual: nat -> bv32, eo: nat, ao: nat, n: nat) {
    forall i :: 0 <= i < n ==> WordAt(actual, ao, i) == WordAt(expected, eo, i)
  }

  /** The matches among the first `n` positions, counted position by
      position as the comparison loop does. */
  function MatchesUpTo(expected: nat -> bv32, actual: nat -> bv32, eo: nat, ao: nat, n: nat): (c: nat)
    ensures c <= n
    ensures c == n <==> Agree(expected, actual, eo, ao, n)
    decreases n
  {
    if n == 0 then 0
    else
      MatchesUpTo(expected, actual, eo, ao, n - 1)
        + (if WordAt(actual, ao, n - 1) == WordAt(expected, eo, n - 1) then 1 else 0)
  }

  /** Outcome of the sampled comparison of one transfer. */
  datatype Sample = Sample(matches: nat, mismatches: nat)
  {
    /** PASS is printed exactly when no mismatch was found. */
    predicate Pass() {
      mismatches == 0
    }
  }

  /** `length_lo / 4`: the whole words of the transfer of `e`. */
  function VerifyWords(e: SqEntry): nat {
    (e.lengthLo / 4) as nat
  }

  /** Word index of the transfer's source in the payload buffer. */
  function ExpectedOffset(e: SqEntry): nat {
    WordOffset(e.localKey, PAYLOAD_BUFFER_BASE as bv64) as nat
  }

  /** Word index of the transfer's destination in the remote buffer. */
  function RemoteOffset(e: SqEntry): nat {
    WordOffset(e.remoteKey, REMOTE_BUFFER_BASE as bv64) as nat
  }

  /** Number of words compared for entry `e`: `length_lo / 4`, capped at 8. */
  function SampleSize(e: SqEntry): nat {
    SampleCount(VerifyWords(e))
  }

  /** The payload words the transfer of `e` should have copied first. */
  function ExpectedWords(e: SqEntry, payload: nat -> bv32): seq<bv32> {
    Window(payload, ExpectedOffset(e), SampleSize(e))
  }

  /** The remote words the transfer of `e` wrote first. */
  function ActualWords(e: SqEntry, remote: nat -> bv32): seq<bv32> {
    Window(remote, RemoteOffset(e), SampleSize(e))
  }

  /** The sampled comparison for entry `e`. */
  function CheckSample(e: SqEntry, payload: nat -> bv32, remote: nat -> bv32): (s: Sample)
    ensures s.matches + s.mismatches == SampleSize(e)
    ensures s.Pass() <==> ExpectedWords(e, payload) == ActualWords(e, remote)
  {
    WindowsEqual(payload, remote, ExpectedOffset(e), RemoteOffset(e), SampleSize(e));
    var m := MatchesUpTo(payload, remote, ExpectedOffset(e), RemoteOffset(e), SampleSize(e));
    Sample(m, SampleSize(e) - m)
  }

  /** The comparison loop: words `expected[eo + i]` and `actual[ao + i]` for
      `i < verifyWords && i < 8`. */
  method CompareWords(expected: nat -> bv32, actual: nat -> bv32, eo: nat, ao: nat, verifyWords: nat)
    returns (matchCount: nat, mismatchCount: nat)
    ensures matchCount + mismatchCount == SampleCount(verifyWords)
    ensures matchCount == MatchesUpTo(expected, actual, eo, ao, SampleCount(verifyWords))
    ensures mismatchCount == 0 <==> Agree(expected, actual, eo, ao, SampleCount(verifyWords))
  {
    matchCount, mismatchCount := 0, 0;
    var i: nat := 0;
    while i < verifyWords && i < SAMPLE_LIMIT
      invariant i <= SampleCount(verifyWords)
      invariant matchCount + mismatchCount == i
      invariant matchCount == MatchesUpTo(expected, actual, eo, ao, i)
    {
      if WordAt(actual, ao, i) == WordAt(expected, eo, i) {
        matchCount := matchCount + 1;
      } else {
        mismatchCount := mismatchCount + 1;
      }
      i := i + 1;
    }
  }

  /** The remote-write verification of the harness for entry `e`. */
  method VerifySample(e: SqEntry, payload: nat -> bv32, remote: nat -> bv32)
    returns (matchCount: nat, mismatchCount: nat)
    ensures matchCount + mismatchCount == SampleSize(e)
    ensures mismatchCount == 0 <==> ExpectedWords(e, payload) == ActualWords(e, remote)
    ensures Sample(matchCount, mismatchCount) == CheckSample(e, payload, remote)
  {
    matchCount, mismatchCount := CompareWords(payload, remote, ExpectedOffset(e), RemoteOffset(e), VerifyWords(e));
    WindowsEqual(payload, remote, ExpectedOffset(e), RemoteOffset(e), SampleSize(e));
  }

  /** Every test descriptor is long enough for the full sample of 8 words. */
  lemma TestSamplesAreFull(k: nat)
    requires k < TEST_COUNT
    ensures SampleSize(DESCRIPTORS[k]) == SAMPLE_LIMIT
  {
    assert DESCRIPTORS[k].lengthLo / 4 >= 8;
  }

  /** The sampled words lie at the start of the transfer's source and
      destination windows: the comparison reads what the transfer should
      have copied and where it should have landed. */
  lemma TestSamplesInsideTransfers(k: nat)
    requires k < TEST_COUNT
    ensures WordRange(PAYLOAD_START + 4 * (WordOffset(DESCRIPTORS[k].localKey, PAYLOAD_BUFFER_BASE as bv64) as nat),
                      SampleSize(DESCRIPTORS[k])).Within(SourceRange(DESCRIPTORS[k]))
    ensures WordRange(REMOTE_START + 4 * (WordOffset(DESCRIPTORS[k].remoteKey, REMOTE_BUFFER_BASE as bv64) as nat),
                      SampleSize(DESCRIPTORS[k])).Within(DestRange(DESCRIPTORS[k]))
  {
    TestSamplesAreFull(k);
    SourceRangesValue();
    DestRangesValue();
    assert SourceRanges()[k] == SourceRange(DESCRIPTORS[k]);
    assert DestRanges()[k] == DestRange(DESCRIPTORS[k]);
    if k == 0 {
      assert WordOffset(DESCRIPTORS[k].localKey, PAYLOAD_BUFFER_BASE as bv64) == 0;
      assert WordOffset(DESCRIPTORS[k].remoteKey, REMOTE_BUFFER_BASE as bv64) == 0;
    } else if k == 1 {
      assert WordOffset(DESCRIPTORS[k].localKey, PAYLOAD_BUFFER_BASE as bv64) == 64;
      assert WordOffset(DESCRIPTORS[k].remoteKey, REMOTE_BUFFER_BASE as bv64) == 0x400;
    } else if k == 2 {
      assert WordOffset(DESCRIPTORS[k].localKey, PAYLOAD_BUFFER_BASE as bv64) == 192;
      assert WordOffset(DESCRIPTORS[k].remoteKey, REMOTE_BUFFER_BASE as bv64) == 0x800;
    } else {
      assert WordOffset(DESCRIPTORS[k].localKey, PAYLOAD_BUFFER_BASE as bv64) == 320;
      assert WordOffset(DESCRIPTORS[k].remoteKey, REMOTE_BUFFER_BASE as bv64) == 0xC00;
    }
  }

  /** The payload as the harness fills it: word `i` holds `0xDEAD0000 | i`
      for every `i < 2048`. */
  predicate Filled(payload: nat -> bv32) {
    forall i: nat :: i < PAYLOAD_WORDS ==> payload(i) == PayloadWord(i as bv32)
  }

  /** Word offsets of the four transfers' sources in the payload buffer. */
  const SOURCE_WORD_OFFSETS: seq<nat> := [0, 64, 192, 320]

  lemma ExpectedOffsetValue(k: nat)
    requires k < TEST_COUNT
    ensures ExpectedOffset(DESCRIPTORS[k]) == SOURCE_WORD_OFFSETS[k]
  {
    if k == 0 {
      assert WordOffset(DESCRIPTORS[k].localKey, PAYLOAD_BUFFER_BASE as bv64) == 0;
    } else if k == 1 {
      assert WordOffset(DESCRIPTORS[k].localKey, PAYLOAD_BUFFER_BASE as bv64) == 64;
    } else if k == 2 {
      assert WordOffset(DESCRIPTORS[k].localKey, PAYLOAD_BUFFER_BASE as bv64) == 192;
    } else {
      assert WordOffset(DESCRIPTORS[k].localKey, PAYLOAD_BUFFER_BASE as bv64) == 320;
    }
  }

  /** The same offsets as 32-bit loop indices. */
  const SOURCE_WORD_INDICES: seq<bv32> := [0x0, 0x40, 0xC0, 0x140]

  /** The first word each transfer is checked against is the payload word
      at its source offset. */
  lemma ExpectedFirstWord(payload: nat -> bv32, k: nat)
    requires k < TEST_COUNT
    ensures |ExpectedWords(DESCRIPTORS[k], payload)| > 0
    ensures ExpectedWords(DESCRIPTORS[k], payload)[0] == payload(SOURCE_WORD_OFFSETS[k])
  {
    TestSamplesAreFull(k);
    ExpectedOffsetValue(k);
  }

  /** The filled payload word at each source offset. */
  lemma FilledFirstWord(payload: nat -> bv32, k: nat)
    requires Filled(payload) && k < TEST_COUNT
    ensures payload(SOURCE_WORD_OFFSETS[k]) == PayloadWord(SOURCE_WORD_INDICES[k])
  {
    if k == 0 {
      assert payload(0) == PayloadWord(0);
    } else if k == 1 {
      assert payload(64) == PayloadWord(0x40);
    } else if k == 2 {
      assert payload(192) == PayloadWord(0xC0);
    } else {
      assert payload(320) == PayloadWord(0x140);
    }
  }

  /** The filled words at two different source offsets differ. */
  lemma SourceFirstWordsDistinct(k: nat, k': nat)
    requires k < TEST_COUNT && k' < TEST_COUNT && k != k'
    ensures PayloadWord(SOURCE_WORD_INDICES[k]) != PayloadWord(SOURCE_WORD_INDICES[k'])
  {
    var a, b := SOURCE_WORD_INDICES[k], SOURCE_WORD_INDICES[k'];
    assert a < 0x1_0000 && b < 0x1_0000 && a != b;
    PayloadWordInjective(a, b);
  }

  /** A remote window holding the words another entry is checked against
      fails the check of `e` when the two expected windows differ in their
      first word. */
  lemma FirstWordDiffers(e: SqEntry, e': SqEntry, payload: nat -> bv32, remote: nat -> bv32)
    requires |ExpectedWords(e, payload)| > 0 && |ExpectedWords(e', payload)| > 0
    requires ExpectedWords(e, payload)[0] != ExpectedWords(e', payload)[0]
    ensures ExpectedWords(e, payload) != ExpectedWords(e', payload)
    ensures ActualWords(e, remote) == ExpectedWords(e', payload) ==> !CheckSample(e, payload, remote).Pass()
  {
  }

  /** With the payload as filled, the words two different transfers are
      checked against differ, so a remote window that holds another
      transfer's words, as a misdirected copy would leave it, fails the
      check. */
  lemma FilledSamplesDistinct(payload: nat -> bv32, remote: nat -> bv32, k: nat, k': nat)
    requires Filled(payload)
    requires k < TEST_COUNT && k' < TEST_COUNT && k != k'
    ensures ExpectedWords(DESCRIPTORS[k], payload) != ExpectedWords(DESCRIPTORS[k'], payload)
    ensures ActualWords(DESCRIPTORS[k], remote) == ExpectedWords(DESCRIPTORS[k'], payload) ==>
              !CheckSample(DESCRIPTORS[k], payload, remote).Pass()
  {
    ExpectedFirstWord(payload, k);
    ExpectedFirstWord(payload, k');
    FilledFirstWord(payload, k);
    FilledFirstWord(payload, k');
    SourceFirstWordsDistinct(k, k');
    FirstWordDiffers(DESCRIPTORS[k], DESCRIPTORS[k'], payload, remote);
  }

  /** The DDR contents an iteration reads: the words of the CQ buffer and
      of the remote buffer. */
  datatype Buffers = Buffers(cq: nat -> bv32, remote: nat -> bv32)

  /** What one iteration reports. */
  datatype Report = Report(
    newTail: bv32,
    poll: PollResult,
    completion: Option<Completion>,
    sample: Option<Sample>)

  /** What iteration `testIdx` reports, SQ_TAIL having been `tailBefore`:
      the completion and the sample are examined only when CQ_TAIL moved. */
  function IterateReport(tailBefore: bv32, testIdx: nat, sqBuf: seq<bv32>, payload: nat -> bv32, obs: Observation<Buffers>): (r: Report)
    requires testIdx < TEST_COUNT && |sqBuf| == SQ_CLEAR_WORDS
    ensures r.newTail == NextTailLinear(tailBefore)
    ensures r.poll == Poll(obs.sqHeadBefore, obs.headReads, POLL_TIMEOUT)
    ensures r.sample.Some? <==> obs.cqTailAfter != obs.cqTailBefore
    ensures r.completion.Some? <==> obs.cqTailAfter != obs.cqTailBefore
    ensures r.sample.Some? ==> r.sample.value == CheckSample(LoadSq(sqBuf, testIdx), payload, obs.memory.remote)
    ensures r.completion.Some? ==> r.completion.value == Interpret(LoadCq(obs.memory.cq, obs.cqTailBefore as nat))
  {
    var poll := Poll(obs.sqHeadBefore, obs.headReads, POLL_TIMEOUT);
    if obs.cqTailAfter != obs.cqTailBefore then
      var entry := LoadSq(sqBuf, testIdx);
      var completion := Interpret(LoadCq(obs.memory.cq, obs.cqTailBefore as nat));
      Report(NextTailLinear(tailBefore), poll, Some(completion), Some(CheckSample(entry, payload, obs.memory.remote)))
    else
      Report(NextTailLinear(tailBefore), poll, None, None)
  }

  /** The reports of the first `|obs|` iterations: report `k` is that of
      iteration `k`, run on the register block the earlier iterations left. */
  function Reports(b: Bus, sqBuf: seq<bv32>, payload: nat -> bv32, obs: seq<Observation<Buffers>>): (rs: seq<Report>)
    requires |obs| <= TEST_COUNT && |sqBuf| == SQ_CLEAR_WORDS
    ensures |rs| == |obs|
  {
    seq(|obs|, k requires 0 <= k < |obs| =>
      IterateReport(RunBus(b, LinearTail, obs[..k]).regs[REG_SQ_TAIL], k, sqBuf, payload, obs[k]))
  }

  /** SQ_TAIL after `k` iterations of the submission loop started from 0. */
  const TAILS: seq<bv32> := [0, 1, 2, 3, 4]

  /** Every tail the loop writes is below the ring size, so the tail never
      has to wrap. */
  lemma TailsBelowRingSize()
    ensures forall k :: 0 <= k < |TAILS| ==> TAILS[k] < RING_SIZE
  {
  }

  lemma SuccessorTail(k: nat)
    requires k < TEST_COUNT
    ensures NextTailLinear(TAILS[k]) == TAILS[k + 1]
  {
    if k == 0 {
    } else if k == 1 {
    } else if k == 2 {
    } else {
    }
  }

  /** Starting from SQ_TAIL = 0, the tail after the loop counts the
      iterations. */
  lemma {:induction false} RunTail(b: Bus, obs: seq<Observation<Buffers>>)
    requires |obs| <= TEST_COUNT
    requires b.regs[REG_SQ_TAIL] == 0
    ensures RunBus(b, LinearTail, obs).regs[REG_SQ_TAIL] == TAILS[|obs|]
    decreases |obs|
  {
    if |obs| > 0 {
      var k := |obs| - 1;
      RunTail(b, obs[..k]);
      SuccessorTail(k);
    }
  }

  /** Starting from SQ_TAIL = 0, iteration `k` writes tail `k + 1`. */
  lemma ReportTails(b: Bus, sqBuf: seq<bv32>, payload: nat -> bv32, obs: seq<Observation<Buffers>>)
    requires |obs| <= TEST_COUNT && |sqBuf| == SQ_CLEAR_WORDS
    requires b.regs[REG_SQ_TAIL] == 0
    ensures forall k :: 0 <= k < |obs| ==> Reports(b, sqBuf, payload, obs)[k].newTail == TAILS[k + 1]
  {
    forall k | 0 <= k < |obs|
      ensures Reports(b, sqBuf, payload, obs)[k].newTail == TAILS[k + 1]
    {
      RunTail(b, obs[..k]);
      SuccessorTail(k);
    }
  }

  /** The whole harness after setup, for the engine behaviour `obs`: the
      final register block and the reports of the iterations. */
  datatype Trace = Trace(bus: Bus, reports: seq<Report>)

  function Session(initial: Bus, payload: nat -> bv32, obs: seq<Observation<Buffers>>): (t: Trace)
    requires |obs| <= TEST_COUNT
    ensures |t.reports| == |obs|
    ensures Extends(initial, t.bus) && SoftwareOnly(t.bus.writes[|initial.writes|..])
  {
    var b := Setup(initial, CQ_BUFFER_BASE, RING_SIZE);
    var r := RunBus(b, LinearTail, obs);
    ExtendsSoftwareOnly(initial, b, r);
    Trace(r, Reports(b, PrepareSqBuffer(DESCRIPTORS), payload, obs))
  }

  /** Whatever the engine does, the session writes tails 1, 2, 3, 4 in turn,
      each below the ring size, and ends with SQ_TAIL = number of
      iterations. */
  lemma SessionTails(initial: Bus, payload: nat -> bv32, obs: seq<Observation<Buffers>>)
    requires |obs| <= TEST_COUNT
    ensures Session(initial, payload, obs).bus.regs[REG_SQ_TAIL] == TAILS[|obs|]
    ensures forall k :: 0 <= k < |obs| ==> Session(initial, payload, obs).reports[k].newTail == TAILS[k + 1]
    ensures forall k :: 0 <= k < |obs| ==> Session(initial, payload, obs).reports[k].newTail < RING_SIZE
  {
    RunTail(Setup(initial, CQ_BUFFER_BASE, RING_SIZE), obs);
    ReportTails(Setup(initial, CQ_BUFFER_BASE, RING_SIZE), PrepareSqBuffer(DESCRIPTORS), payload, obs);
    TailsBelowRingSize();
  }

  /** Iteration `k` checks the sample of descriptor `k` itself, and only
      when CQ_TAIL moved. */
  lemma SessionSamples(initial: Bus, payload: nat -> bv32, obs: seq<Observation<Buffers>>, k: nat)
    requires |obs| <= TEST_COUNT && k < |obs|
    ensures obs[k].cqTailAfter != obs[k].cqTailBefore ==>
              Session(initial, payload, obs).reports[k].sample == Some(CheckSample(DESCRIPTORS[k], payload, obs[k].memory.remote))
    ensures obs[k].cqTailAfter == obs[k].cqTailBefore ==> Session(initial, payload, obs).reports[k].sample == None
  {
    var buf := PrepareSqBuffer(DESCRIPTORS);
    assert Session(initial, payload, obs).reports == Reports(Setup(initial, CQ_BUFFER_BASE, RING_SIZE), buf, payload, obs);
    assert LoadSq(buf, k) == DESCRIPTORS[k];
  }

  /** Over a whole session CQ_HEAD ends at 0, where configuration put it, or
      at a CQ_TAIL value the engine reported in some iteration. */
  lemma SessionCqHead(initial: Bus, payload: nat -> bv32, obs: seq<Observation<Buffers>>)
    requires |obs| <= TEST_COUNT
    ensures Session(initial, payload, obs).bus.regs[REG_CQ_HEAD] == 0 ||
            exists k :: 0 <= k < |obs| && obs[k].cqTailAfter != obs[k].cqTailBefore &&
                        Session(initial, payload, obs).bus.regs[REG_CQ_HEAD] == obs[k].cqTailAfter
  {
    RunCqHead(Setup(initial, CQ_BUFFER_BASE, RING_SIZE), LinearTail, obs);
    LastAckReported(0, CqTailsOf(obs));
  }
}

=== FILE: memory_layout.dfy ===
/** Byte ranges of DDR: the buffers the harnesses fill, clear and flush, and
    the source and destination windows of the transfers they describe.

    Cache maintenance is modelled only as the range it covers: a flush of
    `n` bytes at `p` makes the bytes of `Range(p, n)` visible to the engine. */
module MemoryLayout {
  import opened RingEntry

  /** The `len` bytes starting at address `start`. */
  datatype Range = Range(start: int, len: nat)
  {
    function End(): int {
      start + len
    }

    predicate Contains(addr: int) {
      start <= addr < End()
    }

    /** Every byte of this range is a byte of `outer`. */
    predicate Within(outer: Range) {
      outer.start <= start && End() <= outer.End()
    }

    /** No byte belongs to both ranges. */
    predicate DisjointFrom(other: Range) {
      End() <= other.start || other.End() <= start
    }
  }

  /** The bytes of `count` consecutive 32-bit words at `start`. */
  function WordRange(start: int, count: nat): (r: Range)
    ensures r.start == start && r.End() == start + 4 * count
  {
    Range(start, 4 * count)
  }

  /** `Within` is inclusion of the byte sets, for a non-empty range. */
  lemma WithinIsInclusion(r: Range, outer: Range)
    requires r.len > 0
    ensures r.Within(outer) <==> forall a :: r.Contains(a) ==> outer.Contains(a)
  {
    if forall a :: r.Contains(a) ==> outer.Contains(a) {
      assert r.Contains(r.start);
      assert r.Contains(r.End() - 1);
    }
  }

  /** `DisjointFrom` is disjointness of the byte sets, for non-empty ranges. */
  lemma DisjointIsNoCommonByte(r: Range, s: Range)
    requires r.len > 0 && s.len > 0
    ensures r.DisjointFrom(s) <==> forall a :: !(r.Contains(a) && s.Contains(a))
  {
    if !r.DisjointFrom(s) {
      var a := if r.start <= s.start then s.start else r.start;
      assert r.Contains(a) && s.Contains(a);
    }
  }

  /** Inclusion is transitive: a transfer inside a window of a flushed
      buffer is inside the flushed buffer. */
  lemma WithinTransitive(a: Range, b: Range, c: Range)
    requires a.Within(b) && b.Within(c)
    ensures a.Within(c)
  {
  }

  predicate PairwiseDisjoint(rs: seq<Range>) {
    forall i, j :: 0 <= i < j < |rs| ==> rs[i].DisjointFrom(rs[j])
  }

  predicate AllWithin(rs: seq<Range>, outer: Range) {
    forall i :: 0 <= i < |rs| ==> rs[i].Within(outer)
  }

  /** Each range starts where the previous one ends. */
  predicate EndToEnd(rs: seq<Range>) {
    forall i :: 0 <= i < |rs| - 1 ==> rs[i].End() == rs[i + 1].start
  }

  /** In ranges laid end to end, a range ends no later than any later range
      starts. */
  lemma {:induction false} EndToEndOrdered(rs: seq<Range>, i: nat, j: nat)
    requires EndToEnd(rs)
    requires i < j < |rs|
    ensures rs[i].End() <= rs[j].start
    decreases j - i
  {
    if i + 1 < j {
      EndToEndOrdered(rs, i + 1, j);
      assert rs[i + 1].End() == rs[i + 1].start + rs[i + 1].len;
    }
  }

  /** Ranges laid end to end never overlap. */
  lemma EndToEndDisjoint(rs: seq<Range>)
    requires EndToEnd(rs)
    ensures PairwiseDisjoint(rs)
  {
    forall i, j | 0 <= i < j < |rs|
      ensures rs[i].DisjointFrom(rs[j])
    {
      EndToEndOrdered(rs, i, j);
    }
  }

  /** Range `i` starts `i * stride` bytes after `base` and is at most
      `stride` bytes long. */
  predicate Strided(rs: seq<Range>, base: int, stride: nat) {
    forall i :: 0 <= i < |rs| ==> rs[i].start == base + i * stride && rs[i].len <= stride
  }

  /** Ranges in slots of a fixed stride never overlap. */
  lemma StridedDisjoint(rs: seq<Range>, base: int, stride: nat)
    requires Strided(rs, base, stride)
    ensures PairwiseDisjoint(rs)
  {
    forall i, j | 0 <= i < j < |rs|
      ensures rs[i].DisjointFrom(rs[j])
    {
      assert (j - i) * stride >= stride by {
        assert j - i >= 1;
        MulMonotone(j - i, stride);
      }
      assert j * stride == i * stride + (j - i) * stride;
    }
  }

  lemma MulMonotone(k: nat, stride: nat)
    requires k >= 1
    ensures k * stride >= stride
  {
  }

  /** The bytes a submit entry reads: `length` bytes at `local_key`. */
  function SourceRange(e: SqEntry): Range {
    Range(e.localKey as int, e.Length() as int)
  }

  /** The bytes a submit entry writes: `length` bytes at `remote_key`. */
  function DestRange(e: SqEntry): Range {
    Range(e.remoteKey as int, e.Length() as int)
  }
}

=== FILE: optional.dfy ===
/** A value that may be absent. */
module Optional {
  datatype Option<T> = None | Some(value: T)
}

=== FILE: queue_pair.dfy ===
/** The queue-pair controller: the data-mover engine's 32-bit register block
    and the operations software performs on it — configure, global enable,
    ring the submit doorbell, busy-poll SQ_HEAD, acknowledge completions.

    Software's view of the block is a `Bus`: the value each register holds as
    far as software knows (what it last wrote, or what the engine held before
    the session for registers software has not written) and the log of every
    write software has issued. Values that the engine owns — SQ_HEAD, CQ_TAIL
    and the completion entries — never come from the `Bus`; they are oracle
    parameters of the operations that read them. */
module QueuePair {
  import opened Bits

  // Register indices; register `idx` lives at byte offset `4 * idx`.
  const REG_CTRL: nat := 0
  const REG_SQ_BASE_LO: nat := 8
  const REG_SQ_BASE_HI: nat := 9
  const REG_SQ_SIZE: nat := 10
  const REG_SQ_HEAD: nat := 11
  const REG_SQ_TAIL: nat := 12
  const REG_SQ_DOORBELL: nat := 13
  const REG_CQ_BASE_LO: nat := 16
  const REG_CQ_BASE_HI: nat := 17
  const REG_CQ_SIZE: nat := 18
  const REG_CQ_HEAD: nat := 19
  const REG_CQ_TAIL: nat := 20
  const REG_CQ_DOORBELL: nat := 21

  /** Registers 0 .. 21 span the block the drivers address. */
  const REG_COUNT: nat := 22

  /** The named registers of the block. */
  const NAMED_REGS: set<nat> := {
    REG_CTRL, REG_SQ_BASE_LO, REG_SQ_BASE_HI, REG_SQ_SIZE, REG_SQ_HEAD, REG_SQ_TAIL, REG_SQ_DOORBELL,
    REG_CQ_BASE_LO, REG_CQ_BASE_HI, REG_CQ_SIZE, REG_CQ_HEAD, REG_CQ_TAIL, REG_CQ_DOORBELL}

  /** The registers `Configure` writes. */
  const CONFIG_REGS: set<nat> := {
    REG_SQ_BASE_LO, REG_SQ_BASE_HI, REG_SQ_SIZE, REG_CQ_BASE_LO, REG_CQ_BASE_HI, REG_CQ_SIZE,
    REG_SQ_TAIL, REG_CQ_HEAD}

  /** CTRL bit 0. */
  const GLOBAL_ENABLE: bv32 := 0x1

  type RegIndex = i: nat | i < REG_COUNT

  /** `REG_OFFSET(idx)`. */
  function RegOffset(idx: RegIndex): nat {
    idx * 4
  }

  /** `REG_ADDR(idx)`: the engine base plus the register offset, in 32-bit
      unsigned arithmetic. */
  function RegAddr(base: Addr, idx: RegIndex): (a: Addr)
    ensures base % 4 == 0 ==> a % 4 == 0
  {
    (base + RegOffset(idx)) % ADDRESS_SPACE
  }

  /** Distinct registers have distinct addresses, whatever the base, so a
      register file indexed by register number is a faithful picture of the
      memory-mapped block. */
  lemma RegAddrInjective(base: Addr, i: RegIndex, j: RegIndex)
    requires i != j
    ensures RegAddr(base, i) != RegAddr(base, j)
  {
  }

  /** The value of every register of the block. */
  type RegFile = r: seq<bv32> | |r| == REG_COUNT witness seq(REG_COUNT, _ => 0)

  /** One `Xil_Out32` to a register of the block. */
  datatype Write = Write(reg: RegIndex, value: bv32)

  /** Software's view of the register block: register values and write log. */
  datatype Bus = Bus(regs: RegFile, writes: seq<Write>)

  function WriteReg(b: Bus, reg: RegIndex, v: bv32): Bus {
    Bus(b.regs[reg := v], b.writes + [Write(reg, v)])
  }

  /** SQ_HEAD and CQ_TAIL are written only by the engine. */
  predicate HardwareOwned(reg: RegIndex) {
    reg == REG_SQ_HEAD || reg == REG_CQ_TAIL
  }

  /** No write of `ws` targets an engine-owned register. */
  predicate SoftwareOnly(ws: seq<Write>) {
    forall i :: 0 <= i < |ws| ==> !HardwareOwned(ws[i].reg)
  }

  /** `b'` is `b` with more writes appended to its log. */
  predicate Extends(b: Bus, b': Bus) {
    |b.writes| <= |b'.writes| && b'.writes[..|b.writes|] == b.writes
  }

  /** Extending a bus with software-only writes, twice, extends it with
      software-only writes. */
  lemma ExtendsSoftwareOnly(a: Bus, b: Bus, c: Bus)
    requires Extends(a, b) && SoftwareOnly(b.writes[|a.writes|..])
    requires Extends(b, c) && SoftwareOnly(c.writes[|b.writes|..])
    ensures Extends(a, c) && SoftwareOnly(c.writes[|a.writes|..])
  {
    assert c.writes[..|a.writes|] == c.writes[..|b.writes|][..|a.writes|];
    forall i | |a.writes| <= i < |c.writes|
      ensures !HardwareOwned(c.writes[i].reg)
    {
      if i < |b.writes| {
        assert c.writes[i] == b.writes[i] == b.writes[|a.writes|..][i - |a.writes|];
      } else {
        assert c.writes[i] == c.writes[|b.writes|..][i - |b.writes|];
      }
    }
    assert forall i :: 0 <= i < |c.writes| - |a.writes| ==> c.writes[|a.writes|..][i] == c.writes[i + |a.writes|];
  }

  /** Program both rings' base and size registers (the high base words get
      0, the buffers being below 4 GiB), then reset SQ_TAIL and CQ_HEAD. */
  function Configure(b: Bus, sqBase: bv32, sqSize: bv32, cqBase: bv32, cqSize: bv32): (r: Bus)
    ensures r.regs[REG_SQ_TAIL] == 0 && r.regs[REG_CQ_HEAD] == 0
    ensures r.regs[REG_SQ_BASE_LO] == sqBase && r.regs[REG_SQ_BASE_HI] == 0 && r.regs[REG_SQ_SIZE] == sqSize
    ensures r.regs[REG_CQ_BASE_LO] == cqBase && r.regs[REG_CQ_BASE_HI] == 0 && r.regs[REG_CQ_SIZE] == cqSize
    ensures forall i: RegIndex :: i !in CONFIG_REGS ==> r.regs[i] == b.regs[i]
    ensures Extends(b, r) && |r.writes| == |b.writes| + 8
    ensures SoftwareOnly(r.writes[|b.writes|..])
    ensures r.writes[|b.writes| + 6..] == [Write(REG_SQ_TAIL, 0), Write(REG_CQ_HEAD, 0)]
  {
    var b1 := WriteReg(b, REG_SQ_BASE_LO, sqBase & 0xFFFF_FFFF);
    var b2 := WriteReg(b1, REG_SQ_BASE_HI, 0);
    var b3 := WriteReg(b2, REG_SQ_SIZE, sqSize);
    var b4 := WriteReg(b3, REG_CQ_BASE_LO, cqBase & 0xFFFF_FFFF);
    var b5 := WriteReg(b4, REG_CQ_BASE_HI, 0);
    var b6 := WriteReg(b5, REG_CQ_SIZE, cqSize);
    var b7 := WriteReg(b6, REG_SQ_TAIL, 0);
    WriteReg(b7, REG_CQ_HEAD, 0)
  }

  /** Read-modify-write of CTRL that sets GLOBAL_ENABLE. */
  function GlobalEnable(b: Bus): (r: Bus)
    ensures r.regs[REG_CTRL] & GLOBAL_ENABLE == GLOBAL_ENABLE
    ensures AgreeOutside(r.regs[REG_CTRL], b.regs[REG_CTRL], GLOBAL_ENABLE)
    ensures forall i: RegIndex :: i != REG_CTRL ==> r.regs[i] == b.regs[i]
    ensures Extends(b, r) && r.writes[|b.writes|..] == [Write(REG_CTRL, r.regs[REG_CTRL])]
  {
    WriteReg(b, REG_CTRL, SetBits(b.regs[REG_CTRL], GLOBAL_ENABLE))
  }

  /** Enabling an enabled engine leaves every register as it was. */
  lemma GlobalEnableIdempotent(b: Bus)
    ensures GlobalEnable(GlobalEnable(b)).regs == GlobalEnable(b).regs
  {
  }

  /** Write a new SQ_TAIL: the doorbell that hands the entries up to it to
      the engine. */
  function RingDoorbell(b: Bus, newTail: bv32): (r: Bus)
    ensures r.regs[REG_SQ_TAIL] == newTail
    ensures forall i: RegIndex :: i != REG_SQ_TAIL ==> r.regs[i] == b.regs[i]
    ensures Extends(b, r) && r.writes[|b.writes|..] == [Write(REG_SQ_TAIL, newTail)]
  {
    WriteReg(b, REG_SQ_TAIL, newTail)
  }

  /** Next tail in the loopback harness: one past the current tail, in
      32-bit unsigned arithmetic, with no wrap to the ring size. */
  function NextTailLinear(t: bv32): (n: bv32)
    ensures n - t == 1
    ensures t < 0xFFFF_FFFF ==> n > t
    ensures t == 0xFFFF_FFFF ==> n == 0
  {
    t + 1
  }

  /** Next tail in the TX harness: `(t + 1) % 4` in 32-bit unsigned
      arithmetic, 4 being the ring size the harness programs. For every
      `t`, 0xFFFFFFFF included (its successor wraps to 0), the result is
      the one value below 4 that agrees with `t + 1` in its two low bits. */
  function NextTailRing(t: bv32): (n: bv32)
    ensures n < 4 && n & 3 == (t + 1) & 3
    ensures t < 3 ==> n == t + 1
    ensures t == 3 ==> n == 0
  {
    RingWrapBound(t);
    RingWrapStep(t);
    (t + 1) % 4
  }

  lemma RingWrapBound(t: bv32)
    ensures (t + 1) % 4 < 4 && ((t + 1) % 4) & 3 == (t + 1) & 3
  {
  }

  lemma RingWrapStep(t: bv32)
    ensures t < 3 ==> (t + 1) % 4 == t + 1
    ensures t == 3 ==> (t + 1) % 4 == 0
  {
  }

  /** Four doorbells bring a TX tail back where it started: with no drain in
      between, a full ring of four submissions is indistinguishable from an
      empty one (tail == head), which is why the harness must wait for the
      engine before reusing a slot. */
  lemma NextTailRingPeriod(t: bv32)
    requires t < 4
    ensures NextTailRing(NextTailRing(NextTailRing(NextTailRing(t)))) == t
  {
  }

  /** How the SQ_HEAD busy-poll ended. */
  datatype PollOutcome = Advanced(head: bv32) | TimedOut

  /** Outcome, final `poll_count` and final `sq_head_after` of a poll. */
  datatype PollResult = PollResult(outcome: PollOutcome, polls: nat, headAfter: bv32)

  /** Index of the first SQ_HEAD read in `[from, timeout)` that differs from
      `before`, or `timeout` when there is none. */
  function FirstChange(before: bv32, heads: nat -> bv32, from: nat, timeout: nat): (n: nat)
    requires from <= timeout
    ensures from <= n <= timeout
    ensures n < timeout ==> heads(n) != before
    ensures forall j :: from <= j < n ==> heads(j) == before
    decreases timeout - from
  {
    if from == timeout then timeout
    else if heads(from) != before then from
    else FirstChange(before, heads, from + 1, timeout)
  }

  /** The busy-poll on SQ_HEAD: `heads(k)` is the value the k-th read
      returns. The poll stops at the first read that differs from `before`,
      or after `timeout` unchanged reads. */
  function Poll(before: bv32, heads: nat -> bv32, timeout: nat): (r: PollResult)
    ensures r.polls <= timeout
    ensures r.outcome.Advanced? <==> r.headAfter != before
    ensures r.headAfter != before || r.polls == timeout
    ensures r.outcome.Advanced? ==> r.polls < timeout && r.outcome.head == r.headAfter == heads(r.polls)
    ensures forall j :: 0 <= j < r.polls ==> heads(j) == before
  {
    var n := FirstChange(before, heads, 0, timeout);
    if n < timeout then PollResult(Advanced(heads(n)), n, heads(n))
    else PollResult(TimedOut, timeout, before)
  }

  /** The poll loop as the harnesses write it. */
  method PollSqHead(before: bv32, heads: nat -> bv32, timeout: nat) returns (r: PollResult)
    ensures r.polls <= timeout
    ensures r.outcome.Advanced? <==> r.headAfter != before
    ensures r == Poll(before, heads, timeout)
  {
    var pollCount: nat := 0;
    var headAfter := before;
    while pollCount < timeout
      invariant pollCount <= timeout
      invariant headAfter == before
      invariant FirstChange(before, heads, pollCount, timeout) == FirstChange(before, heads, 0, timeout)
    {
      headAfter := heads(pollCount);
      if headAfter != before {
        break;
      }
      pollCount := pollCount + 1;
    }
    if headAfter != before {
      r := PollResult(Advanced(headAfter), pollCount, headAfter);
    } else {
      r := PollResult(TimedOut, pollCount, headAfter);
    }
  }

  /** Acknowledge completions: CQ_HEAD := CQ_TAIL, written only when CQ_TAIL
      moved during the iteration; otherwise the block is left alone. */
  function Acknowledge(b: Bus, cqTailBefore: bv32, cqTailAfter: bv32): (r: Bus)
    ensures Extends(b, r)
    ensures cqTailAfter != cqTailBefore ==>
              r.writes[|b.writes|..] == [Write(REG_CQ_HEAD, cqTailAfter)] && r.regs[REG_CQ_HEAD] == cqTailAfter
    ensures cqTailAfter == cqTailBefore ==> |r.writes| == |b.writes| && r.regs == b.regs
    ensures forall i: RegIndex :: i != REG_CQ_HEAD ==> r.regs[i] == b.regs[i]
  {
    if cqTailAfter != cqTailBefore then WriteReg(b, REG_CQ_HEAD, cqTailAfter) else b
  }

  /** The two CQ_TAIL reads of one iteration: before the doorbell and after
      the poll. */
  datatype CqTails = CqTails(before: bv32, after: bv32)

  /** CQ_HEAD after iterations with CQ_TAIL reads `tails`, starting from
      `head`: the CQ_TAIL read of the last iteration in which CQ_TAIL moved,
      or `head` when it never did. */
  function LastAck(head: bv32, tails: seq<CqTails>): bv32
    decreases |tails|
  {
    if |tails| == 0 then head
    else if tails[|tails| - 1].after != tails[|tails| - 1].before then tails[|tails| - 1].after
    else LastAck(head, tails[..|tails| - 1])
  }

  /** That value is the starting one or a CQ_TAIL read of an iteration in
      which CQ_TAIL moved: the acknowledge never releases a completion the
      engine has not reported. */
  lemma {:induction false} LastAckReported(head: bv32, tails: seq<CqTails>)
    ensures LastAck(head, tails) == head ||
            exists k :: 0 <= k < |tails| && tails[k].after != tails[k].before && LastAck(head, tails) == tails[k].after
    decreases |tails|
  {
    if |tails| > 0 {
      var n := |tails| - 1;
      LastAckReported(head, tails[..n]);
      if tails[n].after == tails[n].before && LastAck(head, tails) != head {
        var k :| 0 <= k < n && tails[..n][k].after != tails[..n][k].before &&
                 LastAck(head, tails[..n]) == tails[..n][k].after;
        assert tails[..n][k] == tails[k];
      }
    }
  }

  /** How a harness advances SQ_TAIL at each doorbell: `tail + 1` in the
      loopback harness, `(tail + 1) % 4` in the ring harness. */
  datatype TailRule = LinearTail | RingTail

  function NextTail(rule: TailRule, t: bv32): bv32 {
    match rule
    case LinearTail => NextTailLinear(t)
    case RingTail => NextTailRing(t)
  }

  /** What the engine made visible to software during one iteration of a
      submission loop. `memory` is whatever else the harness reads from DDR
      in that iteration. */
  datatype Observation<Memory> = Observation(
    sqHeadBefore: bv32,      // SQ_HEAD read before the doorbell
    headReads: nat -> bv32,  // the successive SQ_HEAD reads of the poll
    cqTailBefore: bv32,      // CQ_TAIL read before the doorbell
    cqTailAfter: bv32,       // CQ_TAIL read after the poll
    memory: Memory)

  /** The register traffic of one iteration: the doorbell with the next
      tail, then the conditional acknowledge. */
  function IterateBus<Memory>(b: Bus, rule: TailRule, obs: Observation<Memory>): (r: Bus)
    ensures r.regs[REG_SQ_TAIL] == NextTail(rule, b.regs[REG_SQ_TAIL])
    ensures Extends(b, r) && SoftwareOnly(r.writes[|b.writes|..])
    ensures |r.writes| > |b.writes| && r.writes[|b.writes|] == Write(REG_SQ_TAIL, r.regs[REG_SQ_TAIL])
    ensures obs.cqTailAfter != obs.cqTailBefore ==>
              |r.writes| == |b.writes| + 2 && r.writes[|b.writes| + 1] == Write(REG_CQ_HEAD, obs.cqTailAfter)
    ensures obs.cqTailAfter == obs.cqTailBefore ==> |r.writes| == |b.writes| + 1
    ensures r.regs[REG_CQ_HEAD] == if obs.cqTailAfter != obs.cqTailBefore then obs.cqTailAfter else b.regs[REG_CQ_HEAD]
    ensures forall i: RegIndex :: i != REG_SQ_TAIL && i != REG_CQ_HEAD ==> r.regs[i] == b.regs[i]
  {
    var b1 := RingDoorbell(b, NextTail(rule, b.regs[REG_SQ_TAIL]));
    var b2 := Acknowledge(b1, obs.cqTailBefore, obs.cqTailAfter);
    ExtendsSoftwareOnly(b, b1, b2);
    b2
  }

  /** The register block after the first `|obs|` iterations: every write
      the loop issues targets SQ_TAIL or CQ_HEAD, so the ring bases and
      sizes stay as configured. */
  function RunBus<Memory>(b: Bus, rule: TailRule, obs: seq<Observation<Memory>>): (r: Bus)
    ensures Extends(b, r) && SoftwareOnly(r.writes[|b.writes|..])
    ensures forall i :: |b.writes| <= i < |r.writes| ==> r.writes[i].reg == REG_SQ_TAIL || r.writes[i].reg == REG_CQ_HEAD
    ensures forall i: RegIndex :: i != REG_SQ_TAIL && i != REG_CQ_HEAD ==> r.regs[i] == b.regs[i]
    decreases |obs|
  {
    if |obs| == 0 then
      assert b.writes[|b.writes|..] == [];
      b
    else
      var prev := RunBus(b, rule, obs[..|obs| - 1]);
      var next := IterateBus(prev, rule, obs[|obs| - 1]);
      ExtendsSoftwareOnly(b, prev, next);
      assert forall i :: |b.writes| <= i < |prev.writes| ==> next.writes[i] == next.writes[..|prev.writes|][i];
      next
  }

  /** The two CQ_TAIL reads of each iteration. */
  function CqTailsOf<Memory>(obs: seq<Observation<Memory>>): (ts: seq<CqTails>)
    ensures |ts| == |obs|
    ensures forall k :: 0 <= k < |obs| ==> ts[k] == CqTails(obs[k].cqTailBefore, obs[k].cqTailAfter)
  {
    seq(|obs|, k requires 0 <= k < |obs| => CqTails(obs[k].cqTailBefore, obs[k].cqTailAfter))
  }

  /** The loop leaves CQ_HEAD at the CQ_TAIL read of the last iteration in
      which CQ_TAIL moved, or where it was if none did. */
  lemma {:induction false} RunCqHead<Memory>(b: Bus, rule: TailRule, obs: seq<Observation<Memory>>)
    ensures RunBus(b, rule, obs).regs[REG_CQ_HEAD] == LastAck(b.regs[REG_CQ_HEAD], CqTailsOf(obs))
    decreases |obs|
  {
    if |obs| > 0 {
      var n := |obs| - 1;
      RunCqHead(b, rule, obs[..n]);
      assert CqTailsOf(obs)[..n] == CqTailsOf(obs[..n]);
    }
  }
}

=== FILE: ring_entry.dfy ===
/** The binary work-queue entries that cross the software/hardware boundary:
    the 64-byte submit-queue entry `sq_entry_t` and the 32-byte
    completion-queue entry `cq_entry_t`, both seen as arrays of 32-bit words
    in DDR, plus the submit-queue buffer the harnesses fill with entries. */
module RingEntry {
  import opened Bits

  const SQ_ENTRY_WORDS: nat := 16
  const SQ_ENTRY_BYTES: nat := 64
  const CQ_ENTRY_WORDS: nat := 8
  const CQ_ENTRY_BYTES: nat := 32

  /** The only opcode the harnesses submit (RDMA_WRITE). */
  const OPCODE_RDMA_WRITE: bv16 := 0x0001

  /** The eight reserved words at the end of a submit entry. */
  type Reserved = r: seq<bv32> | |r| == 8 witness [0, 0, 0, 0, 0, 0, 0, 0]

  /** The words of one submit entry, in memory order. */
  type SqWords = w: seq<bv32> | |w| == 16 witness [0, 0, 0, 0, 0, 0, 0, 0, 0, 0, 0, 0, 0, 0, 0, 0]

  /** The words of one completion entry, in memory order. */
  type CqWords = w: seq<bv32> | |w| == 8 witness [0, 0, 0, 0, 0, 0, 0, 0]

  const NO_RESERVED: Reserved := [0, 0, 0, 0, 0, 0, 0, 0]

  /** `sq_entry_t`, field for field. */
  datatype SqEntry = SqEntry(
    id: bv32,
    opcode: bv16,
    flags: bv16,
    localKey: bv64,
    remoteKey: bv64,
    lengthLo: bv32,
    lengthHi: bv32,
    reserved: Reserved)
  {
    /** The 64-bit transfer length whose halves are `length_lo` and `length_hi`. */
    function Length(): bv64 {
      Join64(lengthHi, lengthLo)
    }
  }

  /** The word image of a submit entry. */
  function EncodeSq(e: SqEntry): (w: SqWords)
    ensures w[0] == e.id
    ensures Lo16(w[1]) == e.opcode && Hi16(w[1]) == e.flags
    ensures Join64(w[3], w[2]) == e.localKey && Join64(w[5], w[4]) == e.remoteKey
    ensures w[6] == e.lengthLo && w[7] == e.lengthHi
    ensures w[8..] == e.reserved
    ensures DecodeSq(w) == e
  {
    SplitJoin64(e.localKey);
    SplitJoin64(e.remoteKey);
    [e.id, Join32(e.flags, e.opcode),
     Lo32(e.localKey), Hi32(e.localKey),
     Lo32(e.remoteKey), Hi32(e.remoteKey),
     e.lengthLo, e.lengthHi] + e.reserved
  }

  /** The submit entry a 16-word image denotes. */
  function DecodeSq(w: SqWords): SqEntry {
    SqEntry(w[0], Lo16(w[1]), Hi16(w[1]), Join64(w[3], w[2]), Join64(w[5], w[4]), w[6], w[7], w[8..])
  }

  /** Every 16-word image is the encoding of the entry it decodes to. */
  lemma EncodeDecodeSq(w: SqWords)
    ensures EncodeSq(DecodeSq(w)) == w
  {
    SplitJoin32(w[1]);
    var v := EncodeSq(DecodeSq(w));
    assert v[..8] == w[..8];
    assert w == w[..8] + w[8..];
  }

  /** The bytes an encoded submit entry occupies in DDR. */
  function SqImage(e: SqEntry): (bs: seq<bv8>)
    ensures |bs| == SQ_ENTRY_BYTES
  {
    WordsToBytes(EncodeSq(e))
  }

  /** The word mapping of `EncodeSq` is the C struct layout on a
      little-endian target: every field sits at its natural offset, with no
      padding and with the least significant byte first. */
  lemma EncodeSqFieldOffsets(e: SqEntry)
    ensures SqImage(e)[0..4] == LeBytes32(e.id)
    ensures SqImage(e)[4..6] == LeBytes16(e.opcode)
    ensures SqImage(e)[6..8] == LeBytes16(e.flags)
    ensures SqImage(e)[8..16] == LeBytes64(e.localKey)
    ensures SqImage(e)[16..24] == LeBytes64(e.remoteKey)
    ensures SqImage(e)[24..28] == LeBytes32(e.lengthLo)
    ensures SqImage(e)[28..32] == LeBytes32(e.lengthHi)
    ensures SqImage(e)[32..64] == WordsToBytes(e.reserved)
  {
    WordsToBytesAt(EncodeSq(e), 0);
    HalfWordFields(e);
    KeyFields(e);
    WordsToBytesAt(EncodeSq(e), 6);
    WordsToBytesAt(EncodeSq(e), 7);
    ReservedField(e);
  }

  /** Bytes 4..8 hold `opcode` then `flags`. */
  lemma HalfWordFields(e: SqEntry)
    ensures SqImage(e)[4..6] == LeBytes16(e.opcode)
    ensures SqImage(e)[6..8] == LeBytes16(e.flags)
  {
    var w := EncodeSq(e);
    var bs := SqImage(e);
    WordsToBytesAt(w, 1);
    LeBytes32Halves(w[1]);
    assert bs[4..6] == bs[4..8][..2] && bs[6..8] == bs[4..8][2..];
  }

  /** Words `i` and `i + 1` occupy bytes `4*i .. 4*i+8` of the image. */
  lemma TwoWords(w: seq<bv32>, i: nat)
    requires i + 1 < |w|
    ensures WordsToBytes(w)[4 * i .. 4 * i + 8] == LeBytes32(w[i]) + LeBytes32(w[i + 1])
  {
    var bs := WordsToBytes(w);
    WordsToBytesAt(w, i);
    WordsToBytesAt(w, i + 1);
    SliceSplit(bs, 4 * i, 4 * i + 4, 4 * i + 8);
  }

  /** Bytes 8..24 hold the two keys, each low word first. */
  lemma KeyFields(e: SqEntry)
    ensures SqImage(e)[8..16] == LeBytes64(e.localKey)
    ensures SqImage(e)[16..24] == LeBytes64(e.remoteKey)
  {
    var w := EncodeSq(e);
    TwoWords(w, 2);
    TwoWords(w, 4);
    LeBytes64Halves(e.localKey);
    LeBytes64Halves(e.remoteKey);
  }

  /** Bytes 32..64 hold the reserved words. */
  lemma ReservedField(e: SqEntry)
    ensures SqImage(e)[32..64] == WordsToBytes(e.reserved)
  {
    var w := EncodeSq(e);
    assert w == w[..8] + e.reserved;
    WordsToBytesAppend(w[..8], e.reserved);
  }

  /** `cq_entry_t`, field for field. */
  datatype CqEntry = CqEntry(
    wqeId: bv32,
    statusOpcode: bv32,
    bytesSentLo: bv32,
    bytesSentHi: bv32,
    originalId: bv32,
    originalLength: bv32,
    reserved1: bv32,
    reserved2: bv32)

  /** The word image of a completion entry. */
  function EncodeCq(e: CqEntry): (w: CqWords)
    ensures DecodeCq(w) == e
  {
    [e.wqeId, e.statusOpcode, e.bytesSentLo, e.bytesSentHi, e.originalId, e.originalLength, e.reserved1, e.reserved2]
  }

  /** The completion entry an 8-word image denotes. */
  function DecodeCq(w: CqWords): CqEntry {
    CqEntry(w[0], w[1], w[2], w[3], w[4], w[5], w[6], w[7])
  }

  lemma EncodeDecodeCq(w: CqWords)
    ensures EncodeCq(DecodeCq(w)) == w
  {
  }

  /** What software learns from a completion entry. */
  datatype Completion = Completion(
    wqeId: bv32,
    status: bv8,
    opcode: bv8,
    bytesSent: bv64,
    originalId: bv32,
    originalLength: bv32)
  {
    /** Status 0 is success; any other value is an opaque hardware error code. */
    predicate Succeeded() {
      status == 0
    }
  }

  /** `status_opcode & 0xFF`. */
  function StatusOf(w: bv32): bv8 {
    (w & 0xFF) as bv8
  }

  /** `(status_opcode >> 8) & 0xFF`. */
  function OpcodeOf(w: bv32): bv8 {
    ((w >> 8) & 0xFF) as bv8
  }

  lemma StatusOfPacked(status: bv8, opcode: bv8)
    ensures StatusOf(status as bv32 | (opcode as bv32 << 8)) == status
  {
  }

  lemma OpcodeOfPacked(status: bv8, opcode: bv8)
    ensures OpcodeOf(status as bv32 | (opcode as bv32 << 8)) == opcode
  {
  }

  /** Word 1 of a completion entry: status in bits [7:0], opcode in bits
      [15:8], reserved bits [31:16] zero. */
  function PackStatusOpcode(status: bv8, opcode: bv8): (w: bv32)
    ensures StatusOf(w) == status
    ensures OpcodeOf(w) == opcode
    ensures w >> 16 == 0
  {
    StatusOfPacked(status, opcode);
    OpcodeOfPacked(status, opcode);
    status as bv32 | (opcode as bv32 << 8)
  }

  /** Packing the status and opcode a word holds gives the word back when its
      reserved bits are clear. */
  lemma PackStatusOpcodeOf(w: bv32)
    requires w >> 16 == 0
    ensures PackStatusOpcode(StatusOf(w), OpcodeOf(w)) == w
  {
  }

  /** Bits [31:16] of a status word reach neither the status nor the
      opcode: the word's low half carries both fields. */
  lemma StatusOpcodeLowHalf(w: bv32)
    ensures StatusOf(w & 0xFFFF) == StatusOf(w) && OpcodeOf(w & 0xFFFF) == OpcodeOf(w)
    ensures (w & 0xFFFF) >> 16 == 0
    ensures w >> 16 == 0 ==> w & 0xFFFF == w
  {
  }

  /** Packing the status and opcode of any status word gives back its low
      half. */
  lemma PackStatusOpcodeLowHalf(w: bv32)
    ensures PackStatusOpcode(StatusOf(w), OpcodeOf(w)) == w & 0xFFFF
    ensures w >> 16 == 0 ==> PackStatusOpcode(StatusOf(w), OpcodeOf(w)) == w
  {
    StatusOpcodeLowHalf(w);
    PackStatusOpcodeOf(w & 0xFFFF);
  }

  /** The field extraction `print_cq_entry` performs: the ids and the
      original length pass through, the reported byte count is the 64-bit
      value whose halves are the two count words, and for every status word
      status and opcode are the fields its low half is packed from, whatever
      the hardware put in bits [31:16]. */
  function Interpret(e: CqEntry): (c: Completion)
    ensures c.wqeId == e.wqeId && c.originalId == e.originalId && c.originalLength == e.originalLength
    ensures Lo32(c.bytesSent) == e.bytesSentLo && Hi32(c.bytesSent) == e.bytesSentHi
    ensures PackStatusOpcode(c.status, c.opcode) == e.statusOpcode & 0xFFFF
    ensures e.statusOpcode >> 16 == 0 ==> PackStatusOpcode(c.status, c.opcode) == e.statusOpcode
  {
    assert PackStatusOpcode(StatusOf(e.statusOpcode), OpcodeOf(e.statusOpcode)) == e.statusOpcode & 0xFFFF &&
           (e.statusOpcode >> 16 == 0 ==>
              PackStatusOpcode(StatusOf(e.statusOpcode), OpcodeOf(e.statusOpcode)) == e.statusOpcode) by {
      PackStatusOpcodeLowHalf(e.statusOpcode);
    }
    Completion(e.wqeId, StatusOf(e.statusOpcode), OpcodeOf(e.statusOpcode),
               Join64(e.bytesSentHi, e.bytesSentLo), e.originalId, e.originalLength)
  }

  /** The completion entry hardware writes to report `c`. */
  function MakeCq(c: Completion): (e: CqEntry)
    ensures Interpret(e) == c
    ensures e.statusOpcode >> 16 == 0 && e.reserved1 == 0 && e.reserved2 == 0
  {
    SplitJoin64(c.bytesSent);
    CqEntry(c.wqeId, PackStatusOpcode(c.status, c.opcode), Lo32(c.bytesSent), Hi32(c.bytesSent),
            c.originalId, c.originalLength, 0, 0)
  }

  /** Interpreting loses nothing but the reserved bits. */
  lemma MakeInterpret(e: CqEntry)
    requires e.statusOpcode >> 16 == 0 && e.reserved1 == 0 && e.reserved2 == 0
    ensures MakeCq(Interpret(e)) == e
  {
    PackStatusOpcodeOf(e.statusOpcode);
  }

  /** Store entry `e` into slot `slot` of a submit-queue buffer of words. */
  function StoreSq(buf: seq<bv32>, slot: nat, e: SqEntry): (buf': seq<bv32>)
    requires SQ_ENTRY_WORDS * (slot + 1) <= |buf|
    ensures |buf'| == |buf|
    ensures LoadSq(buf', slot) == e
    ensures forall i :: 0 <= i < |buf| && !(SQ_ENTRY_WORDS * slot <= i < SQ_ENTRY_WORDS * (slot + 1)) ==> buf'[i] == buf[i]
  {
    var lo := SQ_ENTRY_WORDS * slot;
    var r := buf[..lo] + EncodeSq(e) + buf[lo + SQ_ENTRY_WORDS..];
    assert r[lo..lo + SQ_ENTRY_WORDS] == EncodeSq(e);
    r
  }

  /** The entry held in slot `slot` of a submit-queue buffer (`sq_buf[slot]`). */
  function LoadSq(buf: seq<bv32>, slot: nat): SqEntry
    requires SQ_ENTRY_WORDS * (slot + 1) <= |buf|
  {
    DecodeSq(buf[SQ_ENTRY_WORDS * slot .. SQ_ENTRY_WORDS * (slot + 1)])
  }

  /** Storing into one slot leaves every other slot as it was. */
  lemma LoadStoreOther(buf: seq<bv32>, s: nat, t: nat, e: SqEntry)
    requires SQ_ENTRY_WORDS * (s + 1) <= |buf| && SQ_ENTRY_WORDS * (t + 1) <= |buf|
    requires s != t
    ensures LoadSq(StoreSq(buf, s, e), t) == LoadSq(buf, t)
  {
    var buf' := StoreSq(buf, s, e);
    assert buf'[16 * t .. 16 * (t + 1)] == buf[16 * t .. 16 * (t + 1)];
  }

  /** The completion entry at slot `slot` of a completion-queue buffer
      (`cq_buf[slot]`), read from a word-addressed memory view. */
  function LoadCq(mem: nat -> bv32, slot: nat): CqEntry {
    var b := CQ_ENTRY_WORDS * slot;
    DecodeCq([mem(b), mem(b + 1), mem(b + 2), mem(b + 3), mem(b + 4), mem(b + 5), mem(b + 6), mem(b + 7)])
  }

  /** Storing into slot `s` leaves every slot below `s` as it was. */
  lemma LoadStoreBelow(buf: seq<bv32>, s: nat, e: SqEntry)
    requires SQ_ENTRY_WORDS * (s + 1) <= |buf|
    ensures forall k :: 0 <= k < s ==> LoadSq(StoreSq(buf, s, e), k) == LoadSq(buf, k)
  {
    forall k | 0 <= k < s
      ensures LoadSq(StoreSq(buf, s, e), k) == LoadSq(buf, k)
    {
      LoadStoreOther(buf, s, k, e);
    }
  }

  /** `buf` with the entries `es` written into slots `0 .. |es| - 1`, one
      after the other. */
  function StoreAll(buf: seq<bv32>, es: seq<SqEntry>): (r: seq<bv32>)
    requires SQ_ENTRY_WORDS * |es| <= |buf|
    ensures |r| == |buf|
    ensures forall k :: 0 <= k < |es| ==> LoadSq(r, k) == es[k]
    ensures forall i :: SQ_ENTRY_WORDS * |es| <= i < |buf| ==> r[i] == buf[i]
    decreases |es|
  {
    if |es| == 0 then buf
    else
      var n := |es| - 1;
      var prev := StoreAll(buf, es[..n]);
      LoadStoreBelow(prev, n, es[n]);
      StoreSq(prev, n, es[n])
  }
}

=== FILE: ring_test.dfy ===
/** The TX harness of the RDMA transmit application: it clears the submit,
    completion and remote buffers, fills a 1 MiB payload buffer, writes four
    4096-byte RDMA_WRITE descriptors into slots 0 .. 3, configures both rings
    with 4 slots and enables the engine. It then submits sixteen times,
    reusing the four descriptors round the ring: each iteration advances
    SQ_TAIL modulo 4, polls SQ_HEAD and acknowledges the completion when
    CQ_TAIL moved. It does not compare data.

    As in `LoopbackTest`, every value the engine produces arrives in an
    `Observation`, and SQ_TAIL is assumed to read back the value last
    written to it. */
module RingTest {
  import opened RingEntry
  import opened QueuePair
  import opened MemoryLayout
  import opened Harness

  const CQ_BUFFER_BASE: bv32 := 0x4000_0000
  const REMOTE_BUFFER_BASE: bv32 := 0x2000_0000
  const CQ_START: int := CQ_BUFFER_BASE as int
  const REMOTE_START: int := REMOTE_BUFFER_BASE as int

  /** Both rings are configured with 4 slots. */
  const RING_SIZE: bv32 := 4

  const DESCRIPTOR_COUNT: nat := 4
  const ITERATIONS: nat := 16

  /** Every descriptor moves 4096 bytes. */
  const TRANSFER_BYTES: bv32 := 4096

  /** The payload buffer is filled as `4096 * 64` words and flushed as
      `4096 * 64 * 4` bytes. */
  const PAYLOAD_WORDS: nat := 4096 * 64
  const PAYLOAD_FLUSH_BYTES: nat := 4096 * 64 * 4

  /** The CQ buffer is cleared as `16 * 8` words. */
  const CQ_CLEAR_WORDS: nat := 16 * 8

  /** A test descriptor: an RDMA_WRITE of 4096 bytes from payload offset
      `offset` to the same offset of the remote buffer. */
  function Descriptor(id: bv32, offset: bv64): SqEntry {
    RdmaWrite(id, PAYLOAD_BUFFER_BASE as bv64 + offset, REMOTE_BUFFER_BASE as bv64 + offset, TRANSFER_BYTES)
  }

  /** The four descriptors the harness writes into slots 0 .. 3. */
  const DESCRIPTORS: seq<SqEntry> := [
    Descriptor(0x0001_0001, 0x0000),
    Descriptor(0x0002_0002, 0x1000),
    Descriptor(0x0003_0003, 0x2000),
    Descriptor(0x0004_0004, 0x3000)]

  function SourceRanges(): (rs: seq<Range>)
    ensures |rs| == DESCRIPTOR_COUNT
  {
    [SourceRange(DESCRIPTORS[0]), SourceRange(DESCRIPTORS[1]),
     SourceRange(DESCRIPTORS[2]), SourceRange(DESCRIPTORS[3])]
  }

  function DestRanges(): (rs: seq<Range>)
    ensures |rs| == DESCRIPTOR_COUNT
  {
    [DestRange(DESCRIPTORS[0]), DestRange(DESCRIPTORS[1]),
     DestRange(DESCRIPTORS[2]), DestRange(DESCRIPTORS[3])]
  }

  /** The transfers read the payload bytes [0x0000, 0x1000), [0x1000,
      0x2000), [0x2000, 0x3000) and [0x3000, 0x4000). */
  lemma SourceRangesValue()
    ensures SourceRanges() == [Range(PAYLOAD_START, 0x1000), Range(PAYLOAD_START + 0x1000, 0x1000),
                               Range(PAYLOAD_START + 0x2000, 0x1000), Range(PAYLOAD_START + 0x3000, 0x1000)]
  {
    assert SourceRange(DESCRIPTORS[0]) == Range(PAYLOAD_START, 0x1000);
    assert SourceRange(DESCRIPTORS[1]) == Range(PAYLOAD_START + 0x1000, 0x1000);
    assert SourceRange(DESCRIPTORS[2]) == Range(PAYLOAD_START + 0x2000, 0x1000);
    assert SourceRange(DESCRIPTORS[3]) == Range(PAYLOAD_START + 0x3000, 0x1000);
  }

  /** The transfers write the remote bytes at the same offsets. */
  lemma DestRangesValue()
    ensures DestRanges() == [Range(REMOTE_START, 0x1000), Range(REMOTE_START + 0x1000, 0x1000),
                             Range(REMOTE_START + 0x2000, 0x1000), Range(REMOTE_START + 0x3000, 0x1000)]
  {
    assert DestRange(DESCRIPTORS[0]) == Range(REMOTE_START, 0x1000);
    assert DestRange(DESCRIPTORS[1]) == Range(REMOTE_START + 0x1000, 0x1000);
    assert DestRange(DESCRIPTORS[2]) == Range(REMOTE_START + 0x2000, 0x1000);
    assert DestRange(DESCRIPTORS[3]) == Range(REMOTE_START + 0x3000, 0x1000);
  }

  /** The flush length of the payload is exactly the bytes of the words
      written: 1 MiB, not the 16 KiB the comment beside it gives. */
  lemma PayloadFlushCoversFill()
    ensures WordRange(PAYLOAD_START, PAYLOAD_WORDS) == Range(PAYLOAD_START, PAYLOAD_FLUSH_BYTES)
    ensures PAYLOAD_FLUSH_BYTES == 0x10_0000 && PAYLOAD_FLUSH_BYTES != 0x4000
  {
  }

  /** The source windows are laid end to end at the start of the payload,
      so they do not overlap, and all of them lie inside the words that were
      filled and the bytes that were flushed. */
  lemma SourcesInsidePayload()
    ensures EndToEnd(SourceRanges()) && PairwiseDisjoint(SourceRanges())
    ensures AllWithin(SourceRanges(), WordRange(PAYLOAD_START, PAYLOAD_WORDS))
    ensures AllWithin(SourceRanges(), Range(PAYLOAD_START, PAYLOAD_FLUSH_BYTES))
  {
    SourceRangesValue();
    EndToEndDisjoint(SourceRanges());
  }

  /** The destination windows tile the remote region: they start at its
      base, are laid end to end in 0x1000-byte slots, do not overlap, lie
      inside the words that were cleared and the bytes that were flushed,
      and the last one ends exactly where the flushed region ends. */
  lemma DestinationsTileRemote()
    ensures DestRanges()[0].start == REMOTE_START
    ensures EndToEnd(DestRanges()) && Strided(DestRanges(), REMOTE_START, 0x1000)
    ensures PairwiseDisjoint(DestRanges())
    ensures AllWithin(DestRanges(), WordRange(REMOTE_START, REMOTE_WORDS))
    ensures AllWithin(DestRanges(), Range(REMOTE_START, REMOTE_FLUSH_BYTES))
    ensures DestRanges()[DESCRIPTOR_COUNT - 1].End() == Range(REMOTE_START, REMOTE_FLUSH_BYTES).End()
  {
    DestRangesValue();
    EndToEndDisjoint(DestRanges());
  }

  /** The bytes of CQ slot `k`. */
  function CqSlotRange(k: nat): (r: Range)
    ensures r.start == CQ_START + CQ_ENTRY_BYTES * k && r.len == CQ_ENTRY_BYTES
  {
    Range(CQ_START + CQ_ENTRY_BYTES * k, CQ_ENTRY_BYTES)
  }

  /** The clear loop covers every slot of the 4-entry completion ring (and
      twelve more). */
  lemma CqSlotsCleared(k: nat)
    requires k < RING_SIZE as nat
    ensures CqSlotRange(k).Within(WordRange(CQ_START, CQ_CLEAR_WORDS))
  {
  }

  /** SQ_TAIL after `k` iterations started from 0, for `k % 4`. */
  const RING_TAILS: seq<bv32> := [0, 1, 2, 3]

  /** SQ_TAIL after `k` iterations started from 0: `k mod 4`. */
  function TailAfter(k: nat): (t: bv32)
    ensures t < RING_SIZE
  {
    RING_TAILS[k % 4]
  }

  /** One ring doorbell takes the tail after `k` iterations to the tail
      after `k + 1`. */
  lemma NextTailAfter(k: nat)
    ensures NextTailRing(TailAfter(k)) == TailAfter(k + 1)
  {
    var q := k / 4;
    assert k == 4 * q + k % 4;
    if k % 4 == 3 {
      assert k + 1 == 4 * (q + 1);
    } else {
      assert k + 1 == 4 * q + (k % 4 + 1);
    }
  }

  /** `entry_idx = test_idx & 0x3`: the descriptor iteration `testIdx`
      reuses. */
  function EntryIndex(testIdx: bv32): (e: bv32)
    ensures e < DESCRIPTOR_COUNT as bv32
    ensures testIdx < DESCRIPTOR_COUNT as bv32 ==> e == testIdx
  {
    testIdx & 0x3
  }

  /** For each of the sixteen iterations, the tail before the doorbell is
      the descriptor index the comment promises: `k mod 4 == k & 3`. */
  lemma EntryIndexIsTail(k: nat)
    requires k < ITERATIONS
    ensures EntryIndex(k as bv32) == TailAfter(k)
  {
    if k < 8 {
      if k < 4 {
        if k == 0 {} else if k == 1 {} else if k == 2 {} else {}
      } else {
        if k == 4 {} else if k == 5 {} else if k == 6 {} else {}
      }
    } else {
      if k < 12 {
        if k == 8 {} else if k == 9 {} else if k == 10 {} else {}
      } else {
        if k == 12 {} else if k == 13 {} else if k == 14 {} else {}
      }
    }
  }

  /** The slot the engine reads at iteration `k` (SQ_TAIL before the
      doorbell) holds the descriptor the iteration reuses, because the four
      descriptors sit in slots 0 .. 3 of the prepared buffer. */
  lemma SubmittedSlotHoldsDescriptor(k: nat)
    requires k < ITERATIONS
    ensures LoadSq(PrepareSqBuffer(DESCRIPTORS), TailAfter(k) as nat) == DESCRIPTORS[EntryIndex(k as bv32) as nat]
  {
    EntryIndexIsTail(k);
  }

  /** What one iteration reports: the tail written, the descriptor reused,
      the poll, whether TIMEOUT was printed and whether the completion was
      acknowledged (otherwise WARNING was printed). */
  datatype Report = Report(
    newTail: bv32,
    entryIdx: bv32,
    poll: PollResult,
    timedOut: bool,
    acked: bool)

  /** What iteration `testIdx` reports, SQ_TAIL having been `tailBefore`. */
  function IterateReport(tailBefore: bv32, testIdx: bv32, obs: Observation<()>): (r: Report)
    ensures r.newTail == NextTailRing(tailBefore) && r.newTail < RING_SIZE
    ensures r.entryIdx < DESCRIPTOR_COUNT as bv32
    ensures r.poll == Poll(obs.sqHeadBefore, obs.headReads, POLL_TIMEOUT)
    ensures r.timedOut <==> r.poll.outcome.TimedOut?
    ensures r.timedOut ==> r.poll.polls == POLL_TIMEOUT
    ensures r.acked <==> obs.cqTailAfter != obs.cqTailBefore
  {
    var poll := Poll(obs.sqHeadBefore, obs.headReads, POLL_TIMEOUT);
    Report(NextTailRing(tailBefore), EntryIndex(testIdx), poll,
           poll.headAfter == obs.sqHeadBefore, obs.cqTailAfter != obs.cqTailBefore)
  }

  /** Starting from SQ_TAIL = 0, the tail after `|obs|` iterations is
      `|obs| mod 4`. */
  lemma {:induction false} RunTail(b: Bus, obs: seq<Observation<()>>)
    requires b.regs[REG_SQ_TAIL] == 0
    ensures RunBus(b, RingTail, obs).regs[REG_SQ_TAIL] == TailAfter(|obs|)
    decreases |obs|
  {
    if |obs| > 0 {
      var k := |obs| - 1;
      RunTail(b, obs[..k]);
      NextTailAfter(k);
    }
  }

  /** The reports of the first `|obs|` iterations: report `k` is that of
      iteration `k`, run on the register block the earlier iterations left. */
  function Reports(b: Bus, obs: seq<Observation<()>>): (rs: seq<Report>)
    requires |obs| <= ITERATIONS
    ensures |rs| == |obs|
  {
    seq(|obs|, k requires 0 <= k < |obs| =>
      IterateReport(RunBus(b, RingTail, obs[..k]).regs[REG_SQ_TAIL], k as bv32, obs[k]))
  }

  /** The whole harness after setup, for the engine behaviour `obs`: the
      final register block and the reports of the iterations. */
  datatype Trace = Trace(bus: Bus, reports: seq<Report>)

  function Session(initial: Bus, obs: seq<Observation<()>>): (t: Trace)
    requires |obs| <= ITERATIONS
    ensures |t.reports| == |obs|
    ensures Extends(initial, t.bus) && SoftwareOnly(t.bus.writes[|initial.writes|..])
    ensures t.bus.regs[REG_SQ_SIZE] == RING_SIZE && t.bus.regs[REG_CQ_SIZE] == RING_SIZE
  {
    var b := Setup(initial, CQ_BUFFER_BASE, RING_SIZE);
    var r := RunBus(b, RingTail, obs);
    ExtendsSoftwareOnly(initial, b, r);
    Trace(r, Reports(b, obs))
  }

  /** A session is the loop run on the block setup left. */
  lemma SessionUnfold(initial: Bus, obs: seq<Observation<()>>)
    requires |obs| <= ITERATIONS
    ensures Session(initial, obs).bus == RunBus(Setup(initial, CQ_BUFFER_BASE, RING_SIZE), RingTail, obs)
    ensures Session(initial, obs).reports == Reports(Setup(initial, CQ_BUFFER_BASE, RING_SIZE), obs)
  {
  }

  /** Report `k` of a session is iteration `k` run on the block that setup
      and the earlier iterations left. */
  lemma SessionReport(initial: Bus, obs: seq<Observation<()>>, k: nat)
    requires |obs| <= ITERATIONS && k < |obs|
    ensures Session(initial, obs).reports[k]
         == IterateReport(RunBus(Setup(initial, CQ_BUFFER_BASE, RING_SIZE), RingTail, obs[..k]).regs[REG_SQ_TAIL], k as bv32, obs[k])
  {
    SessionUnfold(initial, obs);
  }

  /** Starting from SQ_TAIL = 0, iteration `k` submits descriptor `k & 3`
      and writes tail `(k + 1) mod 4`. */
  lemma ReportTails(b: Bus, obs: seq<Observation<()>>, k: nat)
    requires |obs| <= ITERATIONS && k < |obs|
    requires b.regs[REG_SQ_TAIL] == 0
    ensures Reports(b, obs)[k].entryIdx == TailAfter(k)
    ensures Reports(b, obs)[k].newTail == TailAfter(k + 1)
  {
    RunTail(b, obs[..k]);
    NextTailAfter(k);
    EntryIndexIsTail(k);
  }

  /** Whatever the engine does, the session ends with SQ_TAIL at the
      number of iterations modulo 4: back at 0 after all sixteen. */
  lemma SessionTail(initial: Bus, obs: seq<Observation<()>>)
    requires |obs| <= ITERATIONS
    ensures Session(initial, obs).bus.regs[REG_SQ_TAIL] == TailAfter(|obs|)
    ensures |obs| == ITERATIONS ==> Session(initial, obs).bus.regs[REG_SQ_TAIL] == 0
  {
    SessionUnfold(initial, obs);
    RunTail(Setup(initial, CQ_BUFFER_BASE, RING_SIZE), obs);
  }

  /** Whatever the engine does, iteration `k` submits from tail `k mod 4`,
      which is the descriptor index `k & 3`, and writes tail `(k + 1) mod 4`,
      below the configured ring size. */
  lemma SessionIterationTails(initial: Bus, obs: seq<Observation<()>>, k: nat)
    requires |obs| <= ITERATIONS && k < |obs|
    ensures Session(initial, obs).reports[k].entryIdx == TailAfter(k)
    ensures Session(initial, obs).reports[k].newTail == TailAfter(k + 1)
    ensures Session(initial, obs).reports[k].newTail < Session(initial, obs).bus.regs[REG_SQ_SIZE]
  {
    ReportTails(Setup(initial, CQ_BUFFER_BASE, RING_SIZE), obs, k);
  }

  /** Iteration `k` acknowledges exactly when CQ_TAIL moved, and reports a
      timeout exactly when SQ_HEAD never changed within the poll budget. */
  lemma SessionAcks(initial: Bus, obs: seq<Observation<()>>, k: nat)
    requires |obs| <= ITERATIONS && k < |obs|
    ensures Session(initial, obs).reports[k].acked <==> obs[k].cqTailAfter != obs[k].cqTailBefore
    ensures Session(initial, obs).reports[k].timedOut <==>
              forall j :: 0 <= j < POLL_TIMEOUT ==> obs[k].headReads(j) == obs[k].sqHeadBefore
  {
    SessionReport(initial, obs, k);
    IterationOutcome(RunBus(Setup(initial, CQ_BUFFER_BASE, RING_SIZE), RingTail, obs[..k]).regs[REG_SQ_TAIL], k as bv32, obs[k]);
  }

  /** One iteration times out exactly when every one of its polls reads
      the head it started from. */
  lemma IterationOutcome(tailBefore: bv32, testIdx: bv32, obs: Observation<()>)
    ensures IterateReport(tailBefore, testIdx, obs).timedOut <==>
              forall j :: 0 <= j < POLL_TIMEOUT ==> obs.headReads(j) == obs.sqHeadBefore
  {
    var r := IterateReport(tailBefore, testIdx, obs);
    if !r.timedOut {
      assert obs.headReads(r.poll.polls) != obs.sqHeadBefore;
    }
  }

  /** Over a whole session CQ_HEAD ends at 0, where configuration put it, or
      at a CQ_TAIL value the engine reported in some iteration. */
  lemma SessionCqHead(initial: Bus, obs: seq<Observation<()>>)
    requires |obs| <= ITERATIONS
    ensures Session(initial, obs).bus.regs[REG_CQ_HEAD] == 0 ||
            exists k :: 0 <= k < |obs| && obs[k].cqTailAfter != obs[k].cqTailBefore &&
                        Session(initial, obs).bus.regs[REG_CQ_HEAD] == obs[k].cqTailAfter
  {
    RunCqHead(Setup(initial, CQ_BUFFER_BASE, RING_SIZE), RingTail, obs);
    LastAckReported(0, CqTailsOf(obs));
  }
}
